=== FILE: README.md ===
# ticket-enricher, modelled in Dafny

ticket-enricher takes a ticket from the Linear issue tracker and rewrites it.
It gathers context: similar past tickets and relevant files from GitHub code
search. It then asks a language model for a better title and description and
writes them back to the ticket. Optionally it posts progress comments while
doing so. A webhook endpoint authenticates the tracker's callbacks with an
HMAC signature.

This project models the deterministic core of that service and proves
properties of it. The core covers:

- **Keyword extraction**, which turns a ticket into search keywords.
- **The fail-isolated context search**: if a sub-search fails, its list is
  replaced by an empty one.
- **The prompt composer**: the order of its paragraphs, which paragraphs are
  optional, and the excerpt rule for similar tickets.
- **Post-processing of the model's reply**: stripping a Markdown fence, and
  validating that a title and a description are present.
- **The enrichment pipeline**, modelled as a trace of calls plus an outcome.
- **The webhook's signature check** and its 401/202 decision.
- **The code-snippet assembly**.
- **The tracker helpers**:
  - the result cap of the similarity search;
  - the repository match on attachment URLs;
  - the update success check.

Every collaborator is an input of the model: the tracker SDK, the code host,
the model API, `JSON.parse`, base64 decoding and the HMAC. Each is a function
parameter. Calls that can reject return a `Result`. `JSON.parse` returns an
`Option`, with `None` for a parse error. The HMAC returns bytes, and base64
decoding returns a string.

Files, one module each:

| file | module | models |
|---|---|---|
| `outcomes.dfy` | `Outcomes` | `Option`, `Result`, the error kinds, JavaScript truthiness of optional strings |
| `text.dfy` | `Text` | the JavaScript string operations used: `slice`, `trim`, `join`, `split`, `toLowerCase`, regex splitting on separator runs |
| `utf8.dfy` | `Utf8` | `Buffer.from(s, "utf8")` (UTF-8 encoding, RFC 3629) and `digest("hex")` |
| `linear_client.dfy` | `LinearClient` | `src/services/linearClient.ts` |
| `github_client.dfy` | `GithubClient` | `src/services/githubClient.ts` |
| `context_gatherer.dfy` | `ContextGatherer` | `src/services/contextGatherer.ts` |
| `ai_enricher.dfy` | `AiEnricher` | `src/services/aiEnricher.ts` |
| `enrichment_pipeline.dfy` | `EnrichmentPipeline` | `src/services/enrichmentPipeline.ts` |
| `linear_webhook.dfy` | `LinearWebhook` | `src/routes/linearWebhook.ts` |

Behaviour worth knowing before reading the model:

- The webhook handler only answers 401 or 202. It does not look for an
  `/enrich` command and does not start the pipeline; the code leaves a
  placeholder there.
- The pipeline writes the model's description back exactly as returned.
- The fence stripper recognises only the `json` language tag. Any other tag
  stays in the text handed to `JSON.parse`.
- `gatherContext` calls `searchRelevantCode(keywords, 3)`. That call does not
  match the function's `(repo, keywords, maxFiles, maxContentLength)`
  signature, so the code sub-search inside `gatherContext` is an abstract
  call `CodeCall(keywords, 3)` with its own result or failure. It is not
  wired to the `GithubClient` model.

## Model

| member | source | states |
|---|---|---|
| LinearClient.SearchArgsFor | src/services/linearClient.ts:56-61 | `first` is `maxResults`, defaulting to 5; the team filter is passed exactly when the team id is present and non-empty |
| LinearClient.CopyNodes | src/services/linearClient.ts:63-73 | the state fetches are awaited in node order; all succeed iff the copy succeeds; each copied entry carries the node's identifier, title, description and state name; otherwise the error is that of the first failing node |
| LinearClient.SearchSimilarIssues | src/services/linearClient.ts:52-77 | a rejected search is rethrown unchanged; after a successful search, the call succeeds exactly when every hit's state fetch succeeds, and otherwise fails with the error of the first failing hit; at most `max` results (default 5); the results are the leading hits in search order, copied field by field; with every state fetched, exactly `min(max, hits)` results |
| LinearClient.MatchAt | src/services/linearClient.ts:88 | a capture of `github\.com\/([^/]+\/[^/]+)` is two non-empty slash-free segments joined by one `/`; it follows the host directly at the match position; the second segment is greedy, ending at the next `/` or the end of the URL |
| LinearClient.OwnerRepoAt | src/services/linearClient.ts:88 | the `[^/]+\/[^/]+` part is a prefix of the text after the host, owner/repo-shaped, and ends at a `/` or at the end |
| LinearClient.MatchAtComplete | src/services/linearClient.ts:88 | wherever the host is directly followed by an owner/repo path, the regex matches there |
| LinearClient.FindFrom | src/services/linearClient.ts:88 | a capture is a well-formed owner/repo path; no match means no start position matches |
| LinearClient.FindFromLeftmost | src/services/linearClient.ts:88 | the match taken is the one at the leftmost matching position |
| LinearClient.MatchRepo | src/services/linearClient.ts:88-89 | `url.match` captures an owner/repo path, and is null exactly when no start position matches |
| LinearClient.FirstRepo | src/services/linearClient.ts:83-95 | attachments with a missing or empty URL are skipped; the result is none (null) exactly when no URL matches |
| LinearClient.FirstRepoIsFirst | src/services/linearClient.ts:83-95 | when attachment i is the first that matches, the result is the capture from its URL |
| LinearClient.GetRepoFromAttachments | src/services/linearClient.ts:79-96 | a failure to load the issue or its attachments is rethrown; otherwise the repository is `owner/repo`-shaped, or null exactly when nothing matches |
| LinearClient.UpdateIssue | src/services/linearClient.ts:98-112 | succeeds exactly when the payload reports success; a payload without success becomes an error naming the issue; an SDK failure is rethrown |
| GithubClient.TopKeywords | src/services/githubClient.ts:32 | the first three keywords, or all of them when there are fewer |
| GithubClient.Query | src/services/githubClient.ts:31-32 | the query is exactly the first three keywords joined by spaces, then ` repo:` and the repository, with nothing in between |
| GithubClient.MatchReason | src/services/githubClient.ts:56 | `Matched: ` followed by the first three keywords joined by `, ` |
| GithubClient.SplitRepo | src/services/githubClient.ts:34-35 | accepted exactly when splitting on `/` gives a non-empty first and second segment; the two parts are slash-free, `owner/name` is a prefix of the repository, and the name ends at the next `/` or the end, so any further segments are ignored |
| GithubClient.FetchSnippet | src/services/githubClient.ts:43-63 | a hit yields a snippet exactly when its fetch returns non-empty content; the snippet carries the hit's path and the match reason; its content is a prefix of the decoded file of length `min(maxContentLength, length)`, or, for a negative limit, the file less that many characters from the end |
| GithubClient.FetchAll | src/services/githubClient.ts:43-66 | the kept snippets' paths are a subsequence of the hits, so survivors keep search order; a hit is kept exactly when its fetch succeeds, and each kept snippet is exactly what fetching its path produced |
| GithubClient.FetchAllCounts | src/services/githubClient.ts:43-66 | a hit whose fetch succeeds is kept as many times as it occurs among the hits; a hit whose fetch fails is never kept |
| GithubClient.FetchAllKeepsAll | src/services/githubClient.ts:43-66 | when every fetch succeeds, one snippet per hit is kept, in hit order |
| GithubClient.FetchAllDropsAll | src/services/githubClient.ts:43-66 | when every fetch fails or is empty, no snippet is kept |
| GithubClient.SearchRelevantCode | src/services/githubClient.ts:22-74 | no token, a malformed `owner/repo` or a failed search gives `[]`; at most `maxFiles` snippets (default 3), each at most `maxContentLength` characters (default 2000) and carrying the match reason; after a successful search, the snippet paths are a subsequence of the first `maxFiles` hits, a path is present exactly when its fetch succeeds, and each snippet is what its fetch produced |
| GithubClient.SearchRelevantCodeCounts | src/services/githubClient.ts:43-66 | after a successful search, a path among the first `maxFiles` hits is kept as many times as it occurs there when its fetch succeeds, and never otherwise |
| ContextGatherer.SourceTextLayout | src/services/contextGatherer.ts:27-32 | the keyword source is the title, then each label, then the first 200 characters of a non-empty description, joined by single spaces |
| ContextGatherer.SourceText | src/services/contextGatherer.ts:27-33 | the keyword source opens with the title, and is at most one space and 200 description characters longer than the title and labels joined |
| ContextGatherer.DescriptionTailIrrelevant | src/services/contextGatherer.ts:28-30 | description characters past offset 200 never change the keywords |
| ContextGatherer.FilterKeep | src/services/contextGatherer.ts:36 | keeps exactly the words longer than two characters that are not stop words, in their original order |
| ContextGatherer.FilterKeepCounts | src/services/contextGatherer.ts:36 | a kept word occurs as often as in the input, a dropped word never |
| ContextGatherer.Tokens | src/services/contextGatherer.ts:32-35 | every token is free of whitespace, separators and upper-case letters |
| ContextGatherer.TokensWeave | src/services/contextGatherer.ts:32-35 | the lower-cased source text is exactly the tokens interleaved with the maximal separator runs, so the split cuts at every separator run and nowhere else |
| ContextGatherer.Dedup | src/services/contextGatherer.ts:38 | no duplicates, the same elements as the input, in first-occurrence order |
| ContextGatherer.KeywordsOf | src/services/contextGatherer.ts:36-38 | filtering then de-duplicating clean tokens gives distinct clean keywords, exactly the tokens that pass the filter |
| ContextGatherer.ExtractKeywords | src/services/contextGatherer.ts:26-39 | every keyword is longer than two characters, not a stop word, lowercase, and free of whitespace and separators; no duplicates; exactly the distinct surviving tokens, in first-occurrence order |
| ContextGatherer.SearchQuery | src/services/contextGatherer.ts:42 | the query is trimmed: it has no leading or trailing whitespace |
| ContextGatherer.QueryWithoutLabels | src/services/contextGatherer.ts:42 | with no labels and a title without edge whitespace, the query is the title alone; the trailing space is trimmed away |
| ContextGatherer.QueryWithLabels | src/services/contextGatherer.ts:42 | with labels, the query is the title, a space, then the labels joined by single spaces |
| ContextGatherer.GatherContext | src/services/contextGatherer.ts:41-78 | the similar-ticket search asks for 5 results with the ticket's team filter and yields at most 5 tickets; a failed sub-search becomes `[]` and a successful one is passed through; the function itself never fails |
| ContextGatherer.BothSearchesFail | src/services/contextGatherer.ts:51-63 | when both sub-searches fail, the context is two empty lists |
| AiEnricher.Excerpt | src/services/aiEnricher.ts:47-49 | a description of at most 300 characters is kept whole; a longer one is cut to its first 300 characters followed by `...` |
| AiEnricher.Render | src/services/aiEnricher.ts:36-61 | no rendered paragraph is empty, so `filter(Boolean)` drops only the absent ones |
| AiEnricher.Candidates | src/services/aiEnricher.ts:35-42 | the header is always present; description, status, assignee and project appear exactly when present and non-empty; labels appear exactly when there are some; each shows the ticket's own field |
| AiEnricher.Present | src/services/aiEnricher.ts:65 | the paragraphs kept by `filter(Boolean)` are exactly the present ones |
| AiEnricher.PresentRanks | src/services/aiEnricher.ts:35-65 | the kept ticket paragraphs stay in their fixed order, each kind at most once |
| AiEnricher.TicketParts | src/services/aiEnricher.ts:35-42 | the ticket paragraphs start with the header; each optional paragraph appears once exactly when its field is present and non-empty; they are in order and list no similar tickets or code |
| AiEnricher.Section | src/services/aiEnricher.ts:44-63 | a list section is a heading plus one entry per element, or nothing for an empty list |
| AiEnricher.Parts | src/services/aiEnricher.ts:34-65 | the prompt starts with the header; paragraph kinds never go backwards; each optional ticket paragraph appears once exactly when present; each section heading appears once exactly when its list is non-empty; similar tickets come before code; the entries list the context's tickets and snippets in input order |
| AiEnricher.BuildUserPrompt | src/services/aiEnricher.ts:34-66 | the prompt always begins with `**Ticket**: <identifier> — <title>` |
| AiEnricher.EmptyContextAddsNothing | src/services/aiEnricher.ts:44-56 | a context with two empty lists gives the same prompt as no context |
| AiEnricher.StripLeadingFence | src/services/aiEnricher.ts:91 | text not starting with a fence is unchanged; otherwise the result is a strict suffix starting with no whitespace, and what is removed is the fence, then `json` exactly when it follows the fence, then whitespace only |
| AiEnricher.StripTrailingFence | src/services/aiEnricher.ts:91 | text not ending in a fence (plus whitespace) is unchanged; otherwise the result is the prefix before the fence, one character shorter exactly when a newline stands right before the fence |
| AiEnricher.StripFence | src/services/aiEnricher.ts:91 | the result is never longer than the reply, and a reply without either fence is unchanged |
| AiEnricher.FencedPayload | src/services/aiEnricher.ts:91 | a payload wrapped in a ```` ```json ```` or a bare ```` ``` ```` fence comes out unchanged |
| AiEnricher.OtherTagKept | src/services/aiEnricher.ts:91 | any language tag other than `json` is left in front of the payload |
| AiEnricher.FirstText | src/services/aiEnricher.ts:81 | the text of the first text block; none exactly when no block is text |
| AiEnricher.InterpretReply | src/services/aiEnricher.ts:81-98 | each case is rejected with its own error: no text block, unparsable JSON, JSON `null` (whose field read throws), or a missing or empty title or description; otherwise the result is exactly the parsed title and description |
| AiEnricher.EnrichTicket | src/services/aiEnricher.ts:68-99 | a failed model call is rethrown unchanged; an accepted result has a non-empty title and description |
| AiEnricher.JsonTagIrrelevant | src/services/aiEnricher.ts:91 | for every payload, a reply fenced as ```` ```json ```` and one fenced without a tag are read alike |
| EnrichmentPipeline.Pipeline | src/services/enrichmentPipeline.ts:6-33 | with feedback the first call is the in-progress comment; if it fails the run ends there with its error and posts no failure comment; any later failure ends the trace with the failure comment |
| EnrichmentPipeline.RunEnrichmentWiring | src/services/enrichmentPipeline.ts:6-33 | over the wired stages, the model is asked with the context gathered for the fetched ticket; the write-back happens exactly when the model reply for that context is accepted; the run ends normally exactly when every step succeeds |
| EnrichmentPipeline.Stages | src/services/enrichmentPipeline.ts:11-26 | the `try` block always starts with the fetch; when it ends normally, the fetch and the enrichment succeeded and its first four calls are the fetch, gathering and enrichment for the fetched ticket, and the planned update, followed by the completion comment when asked for |
| EnrichmentPipeline.StagesCalls | src/services/enrichmentPipeline.ts:11-21 | the stage calls of the `try` block are only the fetch when it fails; fetch, gather and enrich when the enrichment does not succeed; and all four, ending with the planned update, when it does |
| EnrichmentPipeline.RunStageCalls | src/services/enrichmentPipeline.ts:7-21 | stages run in the order fetch, gather, enrich, update, each only once every earlier stage succeeded; gathering and enrichment use the fetched ticket; the update is addressed by that ticket's id and carries exactly the enrichment result |
| EnrichmentPipeline.RunUpdates | src/services/enrichmentPipeline.ts:7-21 | the update happens once exactly when the start comment, the fetch and the enrichment succeeded, and never otherwise |
| EnrichmentPipeline.RunComments | src/services/enrichmentPipeline.ts:7-31 | the comments posted are exactly in progress, complete (after a successful update) and failed (on failure), in that order, and none without feedback |
| EnrichmentPipeline.NoFeedbackNoComments | src/services/enrichmentPipeline.ts:7-28 | without feedback no comment is ever posted |
| EnrichmentPipeline.RunOutcome | src/services/enrichmentPipeline.ts:6-33 | the run ends normally exactly when every step succeeds; otherwise it fails with the original error of the first step that failed |
| EnrichmentPipeline.FailureCommentSwallowed | src/services/enrichmentPipeline.ts:28-31 | the tracker's answer to the failure comment never changes the run |
| EnrichmentPipeline.CompletionCommentFailure | src/services/enrichmentPipeline.ts:21-31 | a failed completion comment, after a successful update, still leads to the failure comment and fails with that error |
| LinearWebhook.IsValidSignature | src/routes/linearWebhook.ts:8-25 | no secret or no header is invalid; a byte-length mismatch is invalid; otherwise valid exactly when the header equals the hex HMAC of the body |
| LinearWebhook.Digest | src/routes/linearWebhook.ts:13-15 | the digest is ASCII, two lower-case hex digits per MAC byte, the high nibble first, then the low nibble |
| Utf8.Hex | src/routes/linearWebhook.ts:15 | `digest("hex")` has two characters per byte, each `0`-`9` or `a`-`f`: byte `i` is digits `2i` (high nibble) and `2i+1` (low nibble) |
| Utf8.HexInjective | src/routes/linearWebhook.ts:15 | different byte strings have different hex texts |
| LinearWebhook.RawBody | src/routes/linearWebhook.ts:29 | the signed text is the body's serialisation, and is `{}` exactly when there is no body or the body serialises to `{}` |
| LinearWebhook.MissingBodyIsEmptyObject | src/routes/linearWebhook.ts:29-38 | a request without a body gets the same response as one whose body is `{}` |
| LinearWebhook.NoSecretAcceptsAll | src/routes/linearWebhook.ts:31 | with no secret configured, every request gets 202, whatever its signature |
| LinearWebhook.HandleWebhook | src/routes/linearWebhook.ts:27-45 | 401 with the error message exactly when a secret is set and the signature is invalid; otherwise 202 with `accepted: true`, the event type or `unknown`, and `data.id` or null |
| LinearWebhook.SignedRequestAccepted | src/routes/linearWebhook.ts:13-34 | a request carrying the digest of its body is accepted; any other signature is rejected |
| Utf8.EncodeAsciiInjective | src/routes/linearWebhook.ts:17-24 | comparing the UTF-8 bytes of a header with those of an ASCII digest is the same as comparing the strings |
| Utf8.Encode | src/routes/linearWebhook.ts:17-18 | a UTF-8 buffer has at least one byte per character; an ASCII text encodes to its own character codes, one byte each |
| Utf8.EncodeAppend | src/routes/linearWebhook.ts:17-18 | encoding distributes over concatenation |
| Text.SplitOnRunsKeepsContent | src/services/contextGatherer.ts:35 | splitting on separator runs loses only separators: the tokens, concatenated, are the input without its separator characters |
| Text.SplitOnRunsWeave | src/services/contextGatherer.ts:35 | interleaving the tokens with the separator runs between them gives back the input |
| Text.SplitOnRunsUnique | src/services/contextGatherer.ts:35 | any interleaving of separator-free tokens, non-empty inside, with non-empty separator runs is exactly what the split produces, so the cut points are determined |
| Text.ToLower | src/services/contextGatherer.ts:34 | the result has the input's length, maps each character through ASCII lower-casing, and has no upper-case ASCII letter |
| Text.SplitOnJoin | src/services/githubClient.ts:34 | splitting on a character and joining back with it gives the input |
| Text.SplitOn | src/services/githubClient.ts:34 | `split("/")` gives at least one part, and no part contains the separator |
| Text.SplitOnRuns | src/services/contextGatherer.ts:35 | the regex split gives at least one token; tokens hold only non-separator characters of the input; only the first and last token can be empty |
| Text.Join | src/services/contextGatherer.ts:33 | joining no parts gives the empty text, and the first part opens the joined text |
| Text.JoinLength | src/services/contextGatherer.ts:33 | the joined text is as long as the parts plus one separator between each pair of neighbours |
| Text.JoinEndsWithLast | src/services/contextGatherer.ts:33 | the last part closes the joined text |
| Text.Trim | src/services/contextGatherer.ts:42 | the trimmed text is a slice of the input with no whitespace at either edge, and only whitespace cut from either side |
| Text.SliceTo | src/services/githubClient.ts:43-55 | `slice(0, n)` gives a prefix of length `min(n, length)`, and drops from the end for negative `n` |

## Left out

- The SDK clients for Linear, Octokit and Anthropic, and all network traffic.
  They are function parameters. The system prompt, model name and token
  limit sent with the request go into the opaque `complete` call.
- `getIssue`'s mapping of SDK objects to `IssueData`. The fetched ticket is
  an input.
- HMAC-SHA256 itself, and the constant-time property of `timingSafeEqual`.
  The MAC is an opaque function, the comparison is sequence equality, and
  timing cannot be stated here.
- `JSON.parse` and `JSON.stringify`. The parse result is either a parse error,
  JSON `null`, or a record of the two fields that are read. A non-string but truthy `title` or
  `description` is not represented. The webhook body is reduced to `type`,
  `data.id` and its re-serialised text.
- Base64 decoding. It is a function of the code host.
- Unicode case mapping. `ToLower` maps ASCII letters only.
- Lengths are counted in Unicode scalar values, not UTF-16 code units. They
  differ for text outside the Basic Multilingual Plane.
- The concurrency of `Promise.all` in `gatherContext` and `searchRelevantCode`.
  Only the settled results are modelled.
- All logging, in every module. The `repos` list in `gatherContext` only
  feeds a log line, so it is left out too.
- The lazy Octokit singleton. Token presence is the `hasToken` flag.
- `src/config/env.ts`, `src/app.ts`, `src/index.ts` and `src/routes/enrich.ts`:
  configuration and server plumbing. `enrich.ts` only fetches the issue and
  leaves a TODO.
- AiEnricher.BuildUserPrompt: states only the header prefix of the joined
  text. The paragraph structure is stated on `Parts`, and the `\n\n` join
  itself is the definition.
- AiEnricher.Render: states only that a paragraph is never empty. The exact
  wording of each paragraph is not restated. This includes `(unknown)` for a
  similar ticket without a state and the `, ` join of labels.
- ContextGatherer.SearchQuery: its general contract says only that the query
  is trimmed. The exact text is proved only for titles and labels without
  edge whitespace (`QueryWithoutLabels`, `QueryWithLabels`).

=== FILE: ai_enricher.dfy ===
/** The prompt composer and the post-processing of the model's reply.

    The model call and `JSON.parse` are parameters; what is modelled is the
    text sent (`buildUserPrompt`), the choice of the first text block, the
    removal of a Markdown code fence, and the title/description check.
 */
module AiEnricher {
  import opened Outcomes
  import opened Text
  import opened LinearClient
  import opened GithubClient
  import opened ContextGatherer

  /** The new title and description written back to the ticket. */
  datatype EnrichmentResult = EnrichmentResult(title: string, description: string)

  /** One paragraph of the prompt, before rendering. The constructors are
      listed in the order the prompt places them. */
  datatype Part =
    | TicketLine(identifier: string, title: string)
    | DescriptionPart(text: string)
    | StatusPart(state: string)
    | LabelsPart(labels: seq<string>)
    | AssigneePart(name: string)
    | ProjectPart(name: string)
    | SimilarHeading
    | SimilarEntry(similar: SimilarIssue)
    | CodeHeading
    | CodeEntry(snippet: CodeSnippet)

  /** The position of a kind of paragraph in the prompt. */
  function Rank(p: Part): nat {
    match p
    case TicketLine(_, _) => 0
    case DescriptionPart(_) => 1
    case StatusPart(_) => 2
    case LabelsPart(_) => 3
    case AssigneePart(_) => 4
    case ProjectPart(_) => 5
    case SimilarHeading => 6
    case SimilarEntry(_) => 7
    case CodeHeading => 8
    case CodeEntry(_) => 9
  }

  const ExcerptLength: int := 300

  /** A similar ticket's description, cut to 300 characters, with `...`
      appended exactly when something was cut. */
  function Excerpt(d: string): (r: string)
    ensures |d| <= ExcerptLength ==> r == d
    ensures |d| > ExcerptLength ==> |r| == ExcerptLength + 3 && r[..ExcerptLength] == d[..ExcerptLength]
                                    && r[ExcerptLength..] == "..."
    ensures |r| <= ExcerptLength + 3
  {
    SliceTo(d, ExcerptLength) + (if |d| > ExcerptLength then "..." else "")
  }

  const EmDash: string := "\U{2014}"

  /** The heading line every prompt starts with. */
  function Header(identifier: string, title: string): string {
    "**Ticket**: " + identifier + " " + EmDash + " " + title
  }

  /** The text of one paragraph; none is empty, so `filter(Boolean)` drops
      only the absent (null) paragraphs. */
  function Render(p: Part): (r: string)
    ensures r != []
  {
    match p
    case TicketLine(id, t) => Header(id, t)
    case DescriptionPart(d) => "**Description**:\n" + d
    case StatusPart(s) => "**Status**: " + s
    case LabelsPart(ls) => "**Labels**: " + Join(ls, ", ")
    case AssigneePart(a) => "**Assignee**: " + a
    case ProjectPart(n) => "**Project**: " + n
    case SimilarHeading => "\n---\n**Similar Past Tickets**:"
    case SimilarEntry(s) =>
      var desc := if Truthy(s.description) then "\n  " + Excerpt(s.description.value) else "";
      "- **" + s.identifier + "**: " + s.title + " (" + s.state.GetOr("unknown") + ")" + desc
    case CodeHeading => "\n---\n**Relevant Code Files**:"
    case CodeEntry(c) =>
      "\n**File: `" + c.path + "`** (" + c.matchReason + ")\n```\n" + c.content + "\n```"
  }

  function RenderAll(parts: seq<Part>): seq<string> {
    seq(|parts|, i requires 0 <= i < |parts| => Render(parts[i]))
  }

  /** How many paragraphs of rank `k` there are. */
  function Count(parts: seq<Part>, k: nat): nat {
    if parts == [] then 0 else (if Rank(parts[0]) == k then 1 else 0) + Count(parts[1..], k)
  }

  lemma {:induction false} CountAppend(a: seq<Part>, b: seq<Part>, k: nat)
    ensures Count(a + b, k) == Count(a, k) + Count(b, k)
  {
    if a != [] {
      assert (a + b)[0] == a[0];
      assert (a + b)[1..] == a[1..] + b;
      CountAppend(a[1..], b, k);
    } else {
      assert a + b == b;
    }
  }

  /** The similar tickets the paragraphs list, in order. */
  function SimilarOf(parts: seq<Part>): seq<SimilarIssue> {
    if parts == [] then []
    else (if parts[0].SimilarEntry? then [parts[0].similar] else []) + SimilarOf(parts[1..])
  }

  /** The code snippets the paragraphs list, in order. */
  function CodeOf(parts: seq<Part>): seq<CodeSnippet> {
    if parts == [] then []
    else (if parts[0].CodeEntry? then [parts[0].snippet] else []) + CodeOf(parts[1..])
  }

  lemma {:induction false} OfAppend(a: seq<Part>, b: seq<Part>)
    ensures SimilarOf(a + b) == SimilarOf(a) + SimilarOf(b)
    ensures CodeOf(a + b) == CodeOf(a) + CodeOf(b)
  {
    if a != [] {
      assert (a + b)[0] == a[0];
      assert (a + b)[1..] == a[1..] + b;
      OfAppend(a[1..], b);
      var hs := if a[0].SimilarEntry? then [a[0].similar] else [];
      var hc := if a[0].CodeEntry? then [a[0].snippet] else [];
      assert SimilarOf(a + b) == hs + (SimilarOf(a[1..]) + SimilarOf(b));
      assert CodeOf(a + b) == hc + (CodeOf(a[1..]) + CodeOf(b));
    } else {
      assert a + b == b;
    }
  }

  /** `p` may come before `q`: a later kind, or another entry of the same list. */
  predicate MayPrecede(p: Part, q: Part) {
    Rank(p) < Rank(q) || (Rank(p) == Rank(q) && (Rank(p) == 7 || Rank(p) == 9))
  }

  /** Paragraph kinds never go backwards, and only list entries repeat a kind. */
  predicate Ordered(parts: seq<Part>) {
    forall i, j :: 0 <= i < j < |parts| ==> MayPrecede(parts[i], parts[j])
  }

  /** Each ticket paragraph shows the ticket's own field. */
  predicate FromTicket(issue: IssueData, p: Part) {
    match p
    case TicketLine(id, t) => id == issue.identifier && t == issue.title
    case DescriptionPart(d) => issue.description == Some(d)
    case StatusPart(s) => issue.state == Some(s)
    case LabelsPart(ls) => ls == issue.labels
    case AssigneePart(a) => issue.assignee == Some(a)
    case ProjectPart(n) => issue.project == Some(n)
    case _ => true
  }

  /** The source's `parts` array before `filter(Boolean)`: the header, then
      description, status, labels, assignee and project, each `null` unless
      present and non-empty. Candidate `i` has rank `i`. */
  function Candidates(issue: IssueData): (c: seq<Option<Part>>)
    ensures |c| == 6
    ensures forall i :: 0 <= i < 6 && c[i].Some? ==> Rank(c[i].value) == i && FromTicket(issue, c[i].value)
    ensures c[0] == Some(TicketLine(issue.identifier, issue.title))
    ensures c[1].Some? <==> Truthy(issue.description)
    ensures c[2].Some? <==> Truthy(issue.state)
    ensures c[3].Some? <==> |issue.labels| > 0
    ensures c[4].Some? <==> Truthy(issue.assignee)
    ensures c[5].Some? <==> Truthy(issue.project)
  {
    [ Some(TicketLine(issue.identifier, issue.title)),
      if Truthy(issue.description) then Some(DescriptionPart(issue.description.value)) else None,
      if Truthy(issue.state) then Some(StatusPart(issue.state.value)) else None,
      if |issue.labels| > 0 then Some(LabelsPart(issue.labels)) else None,
      if Truthy(issue.assignee) then Some(AssigneePart(issue.assignee.value)) else None,
      if Truthy(issue.project) then Some(ProjectPart(issue.project.value)) else None ]
  }

  /** `filter(Boolean)` on the candidates: the present ones, in order. */
  function Present(cands: seq<Option<Part>>): (r: seq<Part>)
    ensures forall p :: p in r <==> Some(p) in cands
  {
    if cands == [] then []
    else (if cands[0].Some? then [cands[0].value] else []) + Present(cands[1..])
  }

  /** Every paragraph ranks below `m`. */
  predicate RanksBelow(parts: seq<Part>, m: nat) {
    forall i :: 0 <= i < |parts| ==> Rank(parts[i]) < m
  }

  /** Every paragraph ranks at least `m`. */
  predicate RanksFrom(parts: seq<Part>, m: nat) {
    forall i :: 0 <= i < |parts| ==> m <= Rank(parts[i])
  }

  /** Each kind appears at most once, in rank order. */
  predicate StrictlyRanked(parts: seq<Part>) {
    forall i, j :: 0 <= i < j < |parts| ==> Rank(parts[i]) < Rank(parts[j])
  }

  lemma StrictHead(p: Part, rest: seq<Part>)
    requires StrictlyRanked(rest) && RanksFrom(rest, Rank(p) + 1)
    ensures StrictlyRanked([p] + rest)
  {
    var r := [p] + rest;
    forall i, j | 0 <= i < j < |r| ensures Rank(r[i]) < Rank(r[j]) {
      assert r[j] == rest[j - 1];
      if i > 0 {
        assert r[i] == rest[i - 1];
      }
    }
  }

  /** Candidates whose ranks follow their positions (from `base`) keep ranks
      within the positions' range. */
  lemma {:induction false} PresentRange(cands: seq<Option<Part>>, base: nat)
    requires forall i :: 0 <= i < |cands| && cands[i].Some? ==> Rank(cands[i].value) == base + i
    ensures RanksFrom(Present(cands), base) && RanksBelow(Present(cands), base + |cands|)
  {
    if cands != [] {
      var rest := Present(cands[1..]);
      PresentRange(cands[1..], base + 1);
      var r := Present(cands);
      if cands[0].Some? {
        assert r == [cands[0].value] + rest;
        forall i | 0 <= i < |r| ensures base <= Rank(r[i]) < base + |cands| {
          if i > 0 {
            assert r[i] == rest[i - 1];
          }
        }
      } else {
        assert rest == r;
      }
    }
  }

  /** Under the same condition the candidates survive the filter strictly
      ordered. */
  lemma {:induction false} PresentRanks(cands: seq<Option<Part>>, base: nat)
    requires forall i :: 0 <= i < |cands| && cands[i].Some? ==> Rank(cands[i].value) == base + i
    ensures StrictlyRanked(Present(cands))
  {
    if cands != [] {
      var rest := Present(cands[1..]);
      PresentRanks(cands[1..], base + 1);
      if cands[0].Some? {
        PresentRange(cands[1..], base + 1);
        StrictHead(cands[0].value, rest);
        assert [cands[0].value] + rest == Present(cands);
      } else {
        assert rest == Present(cands);
      }
    }
  }

  /** Under the same condition, a kind is kept once exactly when its
      candidate is present. */
  lemma {:induction false} PresentCounts(cands: seq<Option<Part>>, base: nat, k: nat)
    requires forall i :: 0 <= i < |cands| && cands[i].Some? ==> Rank(cands[i].value) == base + i
    ensures Count(Present(cands), k) == if base <= k < base + |cands| && cands[k - base].Some? then 1 else 0
  {
    if cands != [] {
      var rest := Present(cands[1..]);
      PresentCounts(cands[1..], base + 1, k);
      if base < k < base + |cands| {
        assert cands[1..][k - (base + 1)] == cands[k - base];
      }
      if cands[0].Some? {
        assert [cands[0].value] + rest == Present(cands);
        CountAppend([cands[0].value], rest, k);
      } else {
        assert rest == Present(cands);
      }
    }
  }

  /** Paragraphs ranked below 6 list neither similar tickets nor code. */
  lemma {:induction false} NoEntries(parts: seq<Part>)
    requires RanksBelow(parts, 6)
    ensures SimilarOf(parts) == [] && CodeOf(parts) == []
  {
    if parts != [] {
      assert RanksBelow(parts[1..], 6) by {
        assert forall i :: 1 <= i < |parts| ==> parts[1..][i - 1] == parts[i];
      }
      NoEntries(parts[1..]);
    }
  }

  /** Every paragraph shows the ticket's own fields. */
  predicate AllFromTicket(issue: IssueData, parts: seq<Part>) {
    forall i :: 0 <= i < |parts| ==> FromTicket(issue, parts[i])
  }

  /** The fixed paragraphs: header, then description, status, labels,
      assignee and project, each only when present and non-empty. */
  function TicketParts(issue: IssueData): (r: seq<Part>)
    ensures r != [] && r[0] == TicketLine(issue.identifier, issue.title)
    ensures RanksBelow(r, 6) && StrictlyRanked(r) && AllFromTicket(issue, r)
    ensures Count(r, 1) == (if Truthy(issue.description) then 1 else 0)
    ensures Count(r, 2) == (if Truthy(issue.state) then 1 else 0)
    ensures Count(r, 3) == (if |issue.labels| > 0 then 1 else 0)
    ensures Count(r, 4) == (if Truthy(issue.assignee) then 1 else 0)
    ensures Count(r, 5) == (if Truthy(issue.project) then 1 else 0)
    ensures SimilarOf(r) == [] && CodeOf(r) == []
  {
    var c := Candidates(issue);
    TicketShape(issue, c);
    TicketCounts(issue, c);
    Present(c)
  }

  lemma TicketShape(issue: IssueData, c: seq<Option<Part>>)
    requires c == Candidates(issue)
    ensures var r := Present(c);
      && r != [] && r[0] == TicketLine(issue.identifier, issue.title)
      && RanksBelow(r, 6) && StrictlyRanked(r) && AllFromTicket(issue, r)
      && SimilarOf(r) == [] && CodeOf(r) == []
  {
    var r := Present(c);
    PresentRange(c, 0);
    PresentRanks(c, 0);
    assert r == [c[0].value] + Present(c[1..]);
    forall i | 0 <= i < |r| ensures FromTicket(issue, r[i]) {
      assert r[i] in r;
      var k :| 0 <= k < |c| && c[k] == Some(r[i]);
    }
    NoEntries(r);
  }

  lemma TicketCounts(issue: IssueData, c: seq<Option<Part>>)
    requires c == Candidates(issue)
    ensures Count(Present(c), 1) == (if Truthy(issue.description) then 1 else 0)
    ensures Count(Present(c), 2) == (if Truthy(issue.state) then 1 else 0)
    ensures Count(Present(c), 3) == (if |issue.labels| > 0 then 1 else 0)
    ensures Count(Present(c), 4) == (if Truthy(issue.assignee) then 1 else 0)
    ensures Count(Present(c), 5) == (if Truthy(issue.project) then 1 else 0)
  {
    CandidateCount(c, 1);
    CandidateCount(c, 2);
    CandidateCount(c, 3);
    CandidateCount(c, 4);
    CandidateCount(c, 5);
  }

  /** For six rank-ordered candidates, kind `k` is kept once exactly when
      candidate `k` is present. */
  lemma CandidateCount(c: seq<Option<Part>>, k: nat)
    requires |c| == 6 && k < 6
    requires forall i :: 0 <= i < 6 && c[i].Some? ==> Rank(c[i].value) == i
    ensures Count(Present(c), k) == if c[k].Some? then 1 else 0
  {
    PresentCounts(c, 0, k);
  }

  function SimilarParts(sims: seq<SimilarIssue>): (r: seq<Part>)
    ensures |r| == |sims|
    ensures forall i :: 0 <= i < |r| ==> r[i] == SimilarEntry(sims[i])
    ensures SimilarOf(r) == sims && CodeOf(r) == []
    ensures forall k: nat :: Count(r, k) == if k == 7 then |sims| else 0
  {
    if sims == [] then [] else [SimilarEntry(sims[0])] + SimilarParts(sims[1..])
  }

  function CodeParts(code: seq<CodeSnippet>): (r: seq<Part>)
    ensures |r| == |code|
    ensures forall i :: 0 <= i < |r| ==> r[i] == CodeEntry(code[i])
    ensures CodeOf(r) == code && SimilarOf(r) == []
    ensures forall k: nat :: Count(r, k) == if k == 9 then |code| else 0
  {
    if code == [] then [] else [CodeEntry(code[0])] + CodeParts(code[1..])
  }

  /** The similar tickets supplied with the context, if any. */
  function SimilarList(context: Option<EnrichmentContext>): seq<SimilarIssue> {
    if context.Some? then context.value.similarIssues else []
  }

  /** The code snippets supplied with the context, if any. */
  function CodeList(context: Option<EnrichmentContext>): seq<CodeSnippet> {
    if context.Some? then context.value.codeSnippets else []
  }

  /** A heading followed by one entry per element, or nothing for an empty
      list. All entries share the rank right after the heading's. */
  function Section(heading: Part, entries: seq<Part>): (r: seq<Part>)
    requires Rank(heading) == 6 || Rank(heading) == 8
    requires forall i :: 0 <= i < |entries| ==> Rank(entries[i]) == Rank(heading) + 1
    ensures Ordered(r) && RanksFrom(r, Rank(heading)) && RanksBelow(r, Rank(heading) + 2)
    ensures forall k: nat :: Count(r, k) == (if k == Rank(heading) && entries != [] then 1 else 0) + Count(entries, k)
    ensures SimilarOf(r) == SimilarOf(entries) && CodeOf(r) == CodeOf(entries)
  {
    if entries == [] then []
    else
      var r := [heading] + entries;
      SectionRanks(heading, entries);
      forall k: nat ensures Count(r, k) == (if k == Rank(heading) then 1 else 0) + Count(entries, k) {
        CountAppend([heading], entries, k);
      }
      OfAppend([heading], entries);
      r
  }

  /** A heading followed by entries of the next rank is ordered. */
  lemma SectionRanks(heading: Part, entries: seq<Part>)
    requires Rank(heading) == 6 || Rank(heading) == 8
    requires forall i :: 0 <= i < |entries| ==> Rank(entries[i]) == Rank(heading) + 1
    ensures var r := [heading] + entries;
      Ordered(r) && RanksFrom(r, Rank(heading)) && RanksBelow(r, Rank(heading) + 2)
  {
    var r := [heading] + entries;
    var m := Rank(heading);
    assert forall i :: 1 <= i < |r| ==> r[i] == entries[i - 1];
    assert forall i :: 1 <= i < |r| ==> Rank(r[i]) == m + 1;
    forall i, j | 0 <= i < j < |r| ensures MayPrecede(r[i], r[j]) {
      assert Rank(r[j]) == m + 1;
    }
  }

  /** No paragraph of a kind at or above the bound. */
  lemma {:induction false} CountBelow(parts: seq<Part>, m: nat, k: nat)
    requires RanksBelow(parts, m) && m <= k
    ensures Count(parts, k) == 0
  {
    if parts != [] {
      assert RanksBelow(parts[1..], m) by {
        assert forall i :: 1 <= i < |parts| ==> parts[1..][i - 1] == parts[i];
      }
      CountBelow(parts[1..], m, k);
    }
  }

  /** All paragraphs of the prompt, in order. */
  function Parts(issue: IssueData, context: Option<EnrichmentContext>): (r: seq<Part>)
    ensures r != [] && r[0] == TicketLine(issue.identifier, issue.title)
    ensures Ordered(r)
    ensures AllFromTicket(issue, r)
    ensures Count(r, 1) == (if Truthy(issue.description) then 1 else 0)
    ensures Count(r, 2) == (if Truthy(issue.state) then 1 else 0)
    ensures Count(r, 3) == (if |issue.labels| > 0 then 1 else 0)
    ensures Count(r, 4) == (if Truthy(issue.assignee) then 1 else 0)
    ensures Count(r, 5) == (if Truthy(issue.project) then 1 else 0)
    ensures Count(r, 6) == (if |SimilarList(context)| > 0 then 1 else 0)
    ensures Count(r, 8) == (if |CodeList(context)| > 0 then 1 else 0)
    ensures SimilarOf(r) == SimilarList(context)
    ensures CodeOf(r) == CodeList(context)
  {
    var t := TicketParts(issue);
    var sims, code := SimilarList(context), CodeList(context);
    LayoutShape(issue, t, sims, code);
    LayoutTicketKinds(t, sims, code);
    LayoutHeadings(t, sims, code);
    LayoutLists(t, sims, code);
    Layout(t, sims, code)
  }

  /** The ticket paragraphs, then the similar-tickets section, then the code
      section. */
  function Layout(t: seq<Part>, sims: seq<SimilarIssue>, code: seq<CodeSnippet>): seq<Part> {
    t + Section(SimilarHeading, SimilarParts(sims)) + Section(CodeHeading, CodeParts(code))
  }

  /** The layout keeps the first ticket paragraph in front, stays ordered, and
      adds nothing that claims to show a ticket field. */
  lemma LayoutShape(issue: IssueData, t: seq<Part>, sims: seq<SimilarIssue>, code: seq<CodeSnippet>)
    requires t != [] && RanksBelow(t, 6) && StrictlyRanked(t) && AllFromTicket(issue, t)
    ensures var r := Layout(t, sims, code);
      r != [] && r[0] == t[0] && Ordered(r) && AllFromTicket(issue, r)
  {
    var s := Section(SimilarHeading, SimilarParts(sims));
    var c := Section(CodeHeading, CodeParts(code));
    assert (t + s + c)[0] == t[0];
    StrictIsOrdered(t);
    OrderedAppend(t, s, 6);
    assert RanksBelow(t, 8);
    RanksBelowAppend(t, s, 8);
    OrderedAppend(t + s, c, 8);
    AllFromTicketAppend(issue, t, s);
    assert RanksFrom(c, 6);
    AllFromTicketAppend(issue, t + s, c);
  }

  /** Count of kind `k` in the concatenation of three paragraph lists. */
  lemma CountThree(t: seq<Part>, s: seq<Part>, c: seq<Part>, k: nat)
    ensures Count(t + s + c, k) == Count(t, k) + Count(s, k) + Count(c, k)
  {
    CountAppend(t + s, c, k);
    CountAppend(t, s, k);
  }

  /** No paragraph of a kind below the bound. */
  lemma {:induction false} CountAbove(parts: seq<Part>, m: nat, k: nat)
    requires RanksFrom(parts, m) && k < m
    ensures Count(parts, k) == 0
  {
    if parts != [] {
      assert RanksFrom(parts[1..], m) by {
        assert forall i :: 1 <= i < |parts| ==> parts[1..][i - 1] == parts[i];
      }
      CountAbove(parts[1..], m, k);
    }
  }

  /** The ticket's own kinds come only from the ticket paragraphs. */
  lemma LayoutTicketKind(t: seq<Part>, sims: seq<SimilarIssue>, code: seq<CodeSnippet>, k: nat)
    requires k < 6
    ensures Count(Layout(t, sims, code), k) == Count(t, k)
  {
    var s := Section(SimilarHeading, SimilarParts(sims));
    var c := Section(CodeHeading, CodeParts(code));
    CountThree(t, s, c, k);
    CountAbove(s, 6, k);
    CountAbove(c, 8, k);
  }

  lemma LayoutTicketKinds(t: seq<Part>, sims: seq<SimilarIssue>, code: seq<CodeSnippet>)
    ensures forall k :: 0 <= k < 6 ==> Count(Layout(t, sims, code), k) == Count(t, k)
  {
    forall k | 0 <= k < 6 ensures Count(Layout(t, sims, code), k) == Count(t, k) {
      LayoutTicketKind(t, sims, code, k);
    }
  }

  /** Each heading comes only from its own section, once when its list is
      non-empty. */
  lemma LayoutHeadings(t: seq<Part>, sims: seq<SimilarIssue>, code: seq<CodeSnippet>)
    requires RanksBelow(t, 6)
    ensures Count(Layout(t, sims, code), 6) == (if |sims| > 0 then 1 else 0)
    ensures Count(Layout(t, sims, code), 8) == (if |code| > 0 then 1 else 0)
  {
    var se := SimilarParts(sims);
    var ce := CodeParts(code);
    var s := Section(SimilarHeading, se);
    var c := Section(CodeHeading, ce);
    CountThree(t, s, c, 6);
    CountThree(t, s, c, 8);
    CountBelow(t, 6, 6);
    CountBelow(t, 6, 8);
    CountBelow(s, 8, 8);
    CountAbove(c, 8, 6);
    assert Count(se, 6) == 0 && Count(ce, 8) == 0;
  }

  /** The entries list the context's tickets and snippets, in order. */
  lemma LayoutLists(t: seq<Part>, sims: seq<SimilarIssue>, code: seq<CodeSnippet>)
    requires SimilarOf(t) == [] && CodeOf(t) == []
    ensures SimilarOf(Layout(t, sims, code)) == sims && CodeOf(Layout(t, sims, code)) == code
  {
    var s := Section(SimilarHeading, SimilarParts(sims));
    var c := Section(CodeHeading, CodeParts(code));
    OfAppend(t + s, c);
    OfAppend(t, s);
  }

  lemma StrictIsOrdered(parts: seq<Part>)
    requires StrictlyRanked(parts)
    ensures Ordered(parts)
  {
  }

  lemma OrderedAppend(a: seq<Part>, b: seq<Part>, m: nat)
    requires Ordered(a) && Ordered(b) && RanksBelow(a, m) && RanksFrom(b, m)
    ensures Ordered(a + b)
  {
    var r := a + b;
    forall i, j | 0 <= i < j < |r| ensures MayPrecede(r[i], r[j]) {
      if j < |a| {
        assert r[i] == a[i] && r[j] == a[j];
      } else if i < |a| {
        assert r[i] == a[i] && r[j] == b[j - |a|];
      } else {
        assert r[i] == b[i - |a|] && r[j] == b[j - |a|];
      }
    }
  }

  lemma RanksBelowAppend(a: seq<Part>, b: seq<Part>, m: nat)
    requires RanksBelow(a, m) && RanksBelow(b, m)
    ensures RanksBelow(a + b, m)
  {
    var r := a + b;
    forall i | 0 <= i < |r| ensures Rank(r[i]) < m {
      if i < |a| { assert r[i] == a[i]; } else { assert r[i] == b[i - |a|]; }
    }
  }

  lemma AllFromTicketAppend(issue: IssueData, a: seq<Part>, b: seq<Part>)
    requires AllFromTicket(issue, a) && RanksFrom(b, 6)
    ensures AllFromTicket(issue, a + b)
  {
    var r := a + b;
    forall i | 0 <= i < |r| ensures FromTicket(issue, r[i]) {
      if i < |a| { assert r[i] == a[i]; } else { assert r[i] == b[i - |a|]; }
    }
  }

  /** `buildUserPrompt`: the rendered paragraphs joined by blank lines. */
  function BuildUserPrompt(issue: IssueData, context: Option<EnrichmentContext>): (prompt: string)
    ensures Header(issue.identifier, issue.title) <= prompt
  {
    var parts := Parts(issue, context);
    var texts := RenderAll(parts);
    JoinStartsWithFirst(texts, "\n\n");
    Join(texts, "\n\n")
  }

  /** Empty lists in the context produce the same prompt as no context. */
  lemma EmptyContextAddsNothing(issue: IssueData)
    ensures BuildUserPrompt(issue, Some(EnrichmentContext([], []))) == BuildUserPrompt(issue, None)
  {
    assert Parts(issue, Some(EnrichmentContext([], []))) == Parts(issue, None);
  }

  // ----- the reply -----

  const Fence: string := "```"

  /** `replace(/^```(?:json)?\s*\n?/, "")`: an opening fence, an optional
      `json` tag, and all whitespace after it. No other tag is recognised. */
  function StripLeadingFence(s: string): (r: string)
    ensures !(Fence <= s) ==> r == s
    ensures Fence <= s ==> |r| < |s| && r == s[|s| - |r|..]
    ensures Fence <= s ==> r == [] || !IsWhitespace(r[0])
    // what is removed: the fence, then `json` when it follows, then whitespace only
    ensures Fence <= s && "json" <= s[|Fence|..] ==>
      |r| <= |s| - 7 && forall i :: 7 <= i < |s| - |r| ==> IsWhitespace(s[i])
    ensures Fence <= s && !("json" <= s[|Fence|..]) ==>
      |r| <= |s| - |Fence| && forall i :: 3 <= i < |s| - |r| ==> IsWhitespace(s[i])
  {
    if Fence <= s then
      var rest := s[|Fence|..];
      var untagged := if "json" <= rest then rest[4..] else rest;
      untagged[Lead(untagged)..]
    else s
  }

  /** The text ends in a fence followed by whitespace only. */
  predicate EndsWithFence(s: string) {
    var t := TrimEnd(s);
    |t| >= |Fence| && t[|t| - |Fence|..] == Fence
  }

  /** `replace(/\n?```\s*$/, "")`: a closing fence with the whitespace after
      it, and one newline right before it. */
  function StripTrailingFence(s: string): (r: string)
    ensures !EndsWithFence(s) ==> r == s
    // what is kept: everything before the fence, less one newline right before it
    ensures EndsWithFence(s) ==> r <= s
    ensures EndsWithFence(s) ==> var n := |TrimEnd(s)| - |Fence|;
      n > 0 && s[n - 1] == '\n' ==> |r| == n - 1
    ensures EndsWithFence(s) ==> var n := |TrimEnd(s)| - |Fence|;
      !(n > 0 && s[n - 1] == '\n') ==> |r| == n
  {
    if EndsWithFence(s) then
      var t := TrimEnd(s);
      var u := t[..|t| - |Fence|];
      if u != [] && u[|u| - 1] == '\n' then u[..|u| - 1] else u
    else s
  }

  /** Both replacements, in the source's order. */
  function StripFence(s: string): (r: string)
    ensures |r| <= |s|
    ensures !(Fence <= s) && !EndsWithFence(s) ==> r == s
  {
    StripTrailingFence(StripLeadingFence(s))
  }

  lemma ClosingFenceRemoved(p: string)
    ensures StripTrailingFence(p + "\n```") == p
  {
    var q := p + "\n```";
    assert q[|q| - 1] == '`';
    assert TrimEnd(q) == q;
    assert q[|q| - 3..] == Fence;
    assert q[..|q| - 3] == p + "\n";
  }

  lemma OpeningJsonFenceRemoved(q: string)
    requires q != [] && !IsWhitespace(q[0])
    ensures StripLeadingFence("```json\n" + q) == q
  {
    var s := "```json\n" + q;
    assert s[..3] == Fence;
    var rest := s[3..];
    assert rest[..4] == "json";
    var untagged := rest[4..];
    assert untagged == "\n" + q;
    assert untagged[1..] == q;
    assert Lead(untagged) == 1;
  }

  lemma OpeningBareFenceRemoved(q: string)
    requires q != [] && !IsWhitespace(q[0])
    ensures StripLeadingFence("```\n" + q) == q
  {
    var s := "```\n" + q;
    assert s[..3] == Fence;
    var rest := s[3..];
    assert rest == "\n" + q;
    assert rest[0] == '\n';
    assert !("json" <= rest);
    assert rest[1..] == q;
    assert Lead(rest) == 1;
  }

  /** A fenced payload comes back unchanged, with or without the `json` tag. */
  lemma FencedPayload(p: string)
    requires p != [] && !IsWhitespace(p[0])
    ensures StripFence("```json\n" + p + "\n```") == p
    ensures StripFence("```\n" + p + "\n```") == p
  {
    JsonFencedPayload(p);
    BareFencedPayload(p);
  }

  lemma JsonFencedPayload(p: string)
    requires p != [] && !IsWhitespace(p[0])
    ensures StripFence("```json\n" + p + "\n```") == p
  {
    var q := p + "\n```";
    assert q[0] == p[0];
    OpeningJsonFenceRemoved(q);
    assert "```json\n" + p + "\n```" == "```json\n" + q;
    ClosingFenceRemoved(p);
  }

  lemma BareFencedPayload(p: string)
    requires p != [] && !IsWhitespace(p[0])
    ensures StripFence("```\n" + p + "\n```") == p
  {
    var q := p + "\n```";
    assert q[0] == p[0];
    OpeningBareFenceRemoved(q);
    assert "```\n" + p + "\n```" == "```\n" + q;
    ClosingFenceRemoved(p);
  }

  lemma NotJsonPrefix(tag: string, rest: string)
    requires !("json" <= tag) && '\n' !in tag
    ensures !("json" <= tag + "\n" + rest)
  {
    var q := tag + "\n" + rest;
    if |tag| >= 4 {
      assert q[..4] == tag[..4];
    } else {
      assert q[|tag|] == '\n';
    }
  }

  /** An opening fence not followed by `json` or whitespace goes alone. */
  lemma OpeningFenceOnlyRemoved(q: string)
    requires q != [] && !IsWhitespace(q[0]) && !("json" <= q)
    ensures StripLeadingFence("```" + q) == q
  {
    var s := "```" + q;
    assert s[..3] == Fence;
    assert s[3..] == q;
    assert Lead(q) == 0;
    assert q[0..] == q;
  }

  /** Any tag other than `json` is left in front of the payload. */
  lemma OtherTagKept(tag: string, p: string)
    requires tag != [] && !IsWhitespace(tag[0]) && !("json" <= tag) && '\n' !in tag
    ensures StripFence("```" + tag + "\n" + p + "\n```") == tag + "\n" + p
  {
    var body := tag + "\n" + p;
    var q := body + "\n```";
    assert q == tag + "\n" + (p + "\n```");
    NotJsonPrefix(tag, p + "\n```");
    assert q[0] == tag[0];
    var s := "```" + tag + "\n" + p + "\n```";
    assert s == "```" + q;
    calc {
      StripFence(s);
      StripTrailingFence(StripLeadingFence("```" + q));
      { OpeningFenceOnlyRemoved(q); }
      StripTrailingFence(q);
      { ClosingFenceRemoved(body); }
      body;
    }
  }

  /** One block of the model's reply. */
  datatype Block = TextBlock(text: string) | OtherBlock(kind: string)

  /** What `JSON.parse` gives, as far as it is read: the JSON value `null`, on
      which reading a field throws, or any other value with its two fields,
      where `None` covers a missing, null or otherwise falsy field. */
  datatype Parsed = Null | Parsed(title: Option<string>, description: Option<string>)

  /** The text of the first text block (`content.find(b => b.type === "text")`). */
  function FirstText(blocks: seq<Block>): (r: Option<string>)
    ensures r.None? <==> forall i :: 0 <= i < |blocks| ==> !blocks[i].TextBlock?
    ensures r.Some? ==> exists i :: 0 <= i < |blocks| && blocks[i] == TextBlock(r.value)
                                    && forall j :: 0 <= j < i ==> !blocks[j].TextBlock?
  {
    if blocks == [] then None
    else if blocks[0].TextBlock? then Some(blocks[0].text)
    else
      var r := FirstText(blocks[1..]);
      assert forall i :: 1 <= i < |blocks| ==> blocks[i] == blocks[1..][i - 1];
      r
  }

  /** A parse that the validation accepts. */
  predicate Accepted(parsed: Option<Parsed>) {
    parsed.Some? && parsed.value.Parsed? && Truthy(parsed.value.title) && Truthy(parsed.value.description)
  }

  /** Everything `enrichTicket` does after the model has answered. */
  function InterpretReply(blocks: seq<Block>, parseJson: string -> Option<Parsed>): (r: Result<EnrichmentResult>)
    ensures FirstText(blocks).None? ==> r == Fail(NoTextResponse)
    ensures FirstText(blocks).Some? ==>
      var parsed := parseJson(StripFence(FirstText(blocks).value));
      && (parsed.None? ==> r == Fail(MalformedJson))
      && (parsed == Some(Null) ==> r == Fail(NullField))
      && (parsed.Some? && parsed.value.Parsed? && !Accepted(parsed) ==> r == Fail(MissingTitleOrDescription))
      && (r.Ok? <==> Accepted(parsed))
      && (r.Ok? ==> parsed == Some(Parsed(Some(r.value.title), Some(r.value.description))))
    ensures r.Ok? ==> r.value.title != [] && r.value.description != []
  {
    match FirstText(blocks)
    case None => Fail(NoTextResponse)
    case Some(text) =>
      match parseJson(StripFence(text))
      case None => Fail(MalformedJson)
      case Some(Null) => Fail(NullField)
      case Some(parsed) =>
        if Truthy(parsed.title) && Truthy(parsed.description) then
          Ok(EnrichmentResult(parsed.title.value, parsed.description.value))
        else Fail(MissingTitleOrDescription)
  }

  /** `enrichTicket`: ask the model with the built prompt, then interpret its
      reply. A failed call is rethrown unchanged. */
  function EnrichTicket(issue: IssueData, context: Option<EnrichmentContext>,
                        complete: string -> Result<seq<Block>>,
                        parseJson: string -> Option<Parsed>): (r: Result<EnrichmentResult>)
    ensures var reply := complete(BuildUserPrompt(issue, context));
      && (reply.Fail? ==> r == Fail(reply.error))
      && (reply.Ok? ==> r == InterpretReply(reply.value, parseJson))
    ensures r.Ok? ==> r.value.title != [] && r.value.description != []
  {
    match complete(BuildUserPrompt(issue, context))
    case Fail(e) => Fail(e)
    case Ok(blocks) => InterpretReply(blocks, parseJson)
  }

  /** A reply fenced as ```json and one fenced without a tag are read alike. */
  lemma JsonTagIrrelevant(p: string, parseJson: string -> Option<Parsed>)
    ensures InterpretReply([TextBlock("```json\n" + p + "\n```")], parseJson)
         == InterpretReply([TextBlock("```\n" + p + "\n```")], parseJson)
  {
    FenceTagIrrelevant(p);
    SameStrippedText("```json\n" + p + "\n```", "```\n" + p + "\n```", parseJson);
  }

  lemma FenceTagIrrelevant(p: string)
    ensures StripFence("```json\n" + p + "\n```") == StripFence("```\n" + p + "\n```")
  {
    var q := "\n" + p + "\n```";
    assert "```json\n" + p + "\n```" == "```json" + q;
    assert "```\n" + p + "\n```" == "```" + q;
    TagBeforeNewlineDropped(q);
  }

  /** Replies that strip to the same text are read alike. */
  lemma SameStrippedText(x: string, y: string, parseJson: string -> Option<Parsed>)
    requires StripFence(x) == StripFence(y)
    ensures InterpretReply([TextBlock(x)], parseJson) == InterpretReply([TextBlock(y)], parseJson)
  {
  }

  /** A `json` tag directly followed by a newline is removed along with the
      fence, leaving what a bare fence leaves. */
  lemma TagBeforeNewlineDropped(q: string)
    requires q != [] && q[0] == '\n'
    ensures StripLeadingFence("```json" + q) == StripLeadingFence("```" + q)
  {
    var a := "```json" + q;
    assert a[..3] == Fence && a[3..][..4] == "json" && a[3..][4..] == q;
    var b := "```" + q;
    assert b[..3] == Fence && b[3..] == q;
    assert !("json" <= q) by { assert q[0] != 'j'; }
  }
}

=== FILE: context_gatherer.dfy ===
/** Keyword extraction and the fail-isolated context search.

    `gatherContext` runs two sub-searches and replaces a failed one by an
    empty list, so it never fails itself. The similar-ticket search is the
    tracker model of `LinearClient`; the code search is called as written,
    `searchRelevantCode(keywords, 3)`, and is an opaque collaborator here.
 */
module ContextGatherer {
  import opened Outcomes
  import opened Text
  import opened LinearClient
  import opened GithubClient

  /** What the prompt builder receives. */
  datatype EnrichmentContext = EnrichmentContext(
    similarIssues: seq<SimilarIssue>,
    codeSnippets: seq<CodeSnippet>)

  /** The positional arguments of the code-search call in `gatherContext`. */
  datatype CodeCall = CodeCall(keywords: seq<string>, second: int)

  /** English and French function words that never become keywords. */
  const StopWords: set<string> := {
    "the", "a", "an", "is", "are", "was", "were", "be", "been", "being",
    "have", "has", "had", "do", "does", "did", "will", "would", "could",
    "should", "may", "might", "can", "shall", "to", "of", "in", "for",
    "on", "with", "at", "by", "from", "as", "into", "through", "during",
    "before", "after", "and", "but", "or", "not", "so", "yet", "this",
    "that", "these", "those", "it", "its", "we", "they", "le", "la",
    "les", "un", "une", "des", "de", "du", "et", "en", "est", "que",
    "qui", "dans", "pour", "sur", "avec", "par", "pas", "plus", "ce",
    "cette", "ces", "son", "sa", "ses"
  }

  /** The separator class `[\s\-_/.,;:!?()\[\]{}"'`]`. */
  predicate IsSeparator(c: char) {
    IsWhitespace(c) || c in "-_/.,;:!?()[]{}\"'`"
  }

  const DescriptionBudget: int := 200

  /** The text keywords are taken from: the title, each label, and the first
      200 characters of a non-empty description, joined by single spaces. */
  function SourceText(issue: IssueData): (r: string)
    ensures issue.title <= r
    // at most the first 200 description characters take part
    ensures |r| <= |Join([issue.title] + issue.labels, " ")| + 1 + DescriptionBudget
  {
    var head := [issue.title] + issue.labels;
    if Truthy(issue.description) then
      var excerpt := SliceTo(issue.description.value, DescriptionBudget);
      JoinSnoc(head, excerpt, " ");
      Join(head + [excerpt], " ")
    else
      Join(head, " ")
  }

  /** The title and labels come first; a description excerpt, if any, last. */
  lemma SourceTextLayout(issue: IssueData)
    ensures Truthy(issue.description) ==>
      SourceText(issue) == Join([issue.title] + issue.labels, " ") + " "
                           + SliceTo(issue.description.value, DescriptionBudget)
    ensures !Truthy(issue.description) ==> SourceText(issue) == Join([issue.title] + issue.labels, " ")
  {
    if Truthy(issue.description) {
      JoinSnoc([issue.title] + issue.labels, SliceTo(issue.description.value, DescriptionBudget), " ");
    }
  }

  /** Description characters past offset 200 never influence the keywords. */
  lemma DescriptionTailIrrelevant(issue: IssueData, other: string)
    requires issue.description.Some?
    requires SliceTo(issue.description.value, DescriptionBudget) == SliceTo(other, DescriptionBudget)
    ensures ExtractKeywords(issue) == ExtractKeywords(issue.(description := Some(other)))
  {
    var d := issue.description.value;
    assert d == [] <==> SliceTo(d, DescriptionBudget) == [];
    assert other == [] <==> SliceTo(other, DescriptionBudget) == [];
    assert SourceText(issue) == SourceText(issue.(description := Some(other)));
  }

  /** A token survives when it is longer than two characters and is not a
      stop word. */
  predicate Keep(w: string) {
    |w| > 2 && w !in StopWords
  }

  /** `words.filter(w => w.length > 2 && !STOP_WORDS.has(w))` */
  function FilterKeep(words: seq<string>): (r: seq<string>)
    ensures forall i :: 0 <= i < |r| ==> Keep(r[i])
    ensures forall w :: w in r <==> w in words && Keep(w)
    ensures IsSubsequence(r, words)
  {
    if words == [] then []
    else if Keep(words[0]) then [words[0]] + FilterKeep(words[1..])
    else FilterKeep(words[1..])
  }

  /** The filter keeps multiplicity: a kept word appears as often as in the
      input, a dropped one not at all. */
  lemma {:induction false} FilterKeepCounts(words: seq<string>, w: string)
    ensures multiset(FilterKeep(words))[w] == if Keep(w) then multiset(words)[w] else 0
  {
    if words != [] {
      FilterKeepCounts(words[1..], w);
      assert words == [words[0]] + words[1..];
      assert multiset(words) == multiset([words[0]]) + multiset(words[1..]);
      if Keep(words[0]) {
        var r := [words[0]] + FilterKeep(words[1..]);
        assert multiset(r) == multiset([words[0]]) + multiset(FilterKeep(words[1..]));
      }
    }
  }

  /** A token in lowercase with no separator in it. */
  predicate CleanToken(w: string) {
    forall c :: c in w ==> !IsSeparator(c) && !IsUpperAscii(c)
  }

  /** The lowercased source text, cut at separator runs. */
  function Tokens(issue: IssueData): (ts: seq<string>)
    ensures forall i :: 0 <= i < |ts| ==> CleanToken(ts[i])
  {
    var s := ToLower(SourceText(issue));
    var ts := SplitOnRuns(s, IsSeparator);
    assert forall c :: c in s ==> !IsUpperAscii(c);
    ts
  }

  /** The lowercased text is the tokens woven with the separator runs that
      were cut out; by `SplitOnRunsUnique` no other cut does that. */
  lemma TokensWeave(issue: IssueData)
    ensures var low := ToLower(SourceText(issue));
      && WellWoven(Tokens(issue), Runs(low, IsSeparator), IsSeparator)
      && Weave(Tokens(issue), Runs(low, IsSeparator)) == low
  {
    SplitOnRunsWeave(ToLower(SourceText(issue)), IsSeparator);
  }

  /** The surviving tokens, before de-duplication. */
  function Words(issue: IssueData): seq<string> {
    FilterKeep(Tokens(issue))
  }

  predicate NoDuplicates(s: seq<string>) {
    forall i, j :: 0 <= i < j < |s| ==> s[i] != s[j]
  }

  /** The position of the first occurrence of `x` in `s`. */
  function FirstIndex(s: seq<string>, x: string): (k: nat)
    requires x in s
    ensures k < |s| && s[k] == x
    ensures forall j :: 0 <= j < k ==> s[j] != x
  {
    if s[0] == x then 0 else 1 + FirstIndex(s[1..], x)
  }

  /** Past the head, first occurrences move back by one. */
  lemma FirstIndexShift(s: seq<string>, x: string)
    requires s != [] && x in s[1..] && x != s[0]
    ensures x in s && FirstIndex(s, x) == 1 + FirstIndex(s[1..], x)
  {
    assert s == [s[0]] + s[1..];
  }

  /** `[...new Set(s)]` with the elements of `seen` already in the set: each
      new element once, at its first occurrence. */
  function DedupAfter(s: seq<string>, seen: set<string>): (r: seq<string>)
    ensures NoDuplicates(r)
    ensures forall x :: x in r <==> x in s && x !in seen
    ensures forall i, j :: 0 <= i < j < |r| ==> FirstIndex(s, r[i]) < FirstIndex(s, r[j])
  {
    if s == [] then []
    else if s[0] in seen then
      var r := DedupAfter(s[1..], seen);
      assert forall i :: 0 <= i < |r| ==> r[i] in s && FirstIndex(s, r[i]) == 1 + FirstIndex(s[1..], r[i]) by {
        forall i | 0 <= i < |r| ensures r[i] in s && FirstIndex(s, r[i]) == 1 + FirstIndex(s[1..], r[i]) {
          assert r[i] in r;
          FirstIndexShift(s, r[i]);
        }
      }
      r
    else
      var rest := DedupAfter(s[1..], seen + {s[0]});
      DedupCons(s, rest);
      [s[0]] + rest
  }

  /** The step of `DedupAfter` that keeps the head. */
  lemma DedupCons(s: seq<string>, rest: seq<string>)
    requires s != []
    requires NoDuplicates(rest)
    requires forall x :: x in rest ==> x in s[1..] && x != s[0]
    requires forall i, j :: 0 <= i < j < |rest| ==> FirstIndex(s[1..], rest[i]) < FirstIndex(s[1..], rest[j])
    ensures NoDuplicates([s[0]] + rest)
    ensures var r := [s[0]] + rest;
      forall i, j :: 0 <= i < j < |r| ==> r[i] in s && r[j] in s && FirstIndex(s, r[i]) < FirstIndex(s, r[j])
  {
    var r := [s[0]] + rest;
    assert forall i :: 1 <= i < |r| ==> r[i] == rest[i - 1];
    ShiftAll(s, rest);
    forall i, j | 0 <= i < j < |r| ensures r[i] in s && r[j] in s && FirstIndex(s, r[i]) < FirstIndex(s, r[j]) {
      assert r[j] == rest[j - 1];
      if i > 0 {
        assert r[i] == rest[i - 1];
      }
    }
  }

  /** Every element of `rest` sits one place later in `s` than in `s[1..]`. */
  lemma ShiftAll(s: seq<string>, rest: seq<string>)
    requires s != []
    requires forall x :: x in rest ==> x in s[1..] && x != s[0]
    ensures forall i :: 0 <= i < |rest| ==> rest[i] in s && FirstIndex(s, rest[i]) == 1 + FirstIndex(s[1..], rest[i])
  {
    forall i | 0 <= i < |rest| ensures rest[i] in s && FirstIndex(s, rest[i]) == 1 + FirstIndex(s[1..], rest[i]) {
      assert rest[i] in rest;
      FirstIndexShift(s, rest[i]);
    }
  }

  /** `[...new Set(s)]` */
  function Dedup(s: seq<string>): (r: seq<string>)
    ensures NoDuplicates(r)
    ensures forall x :: x in r <==> x in s
    ensures forall i, j :: 0 <= i < j < |r| ==> FirstIndex(s, r[i]) < FirstIndex(s, r[j])
  {
    DedupAfter(s, {})
  }

  /** `extractKeywords`: the distinct surviving tokens, in order of first
      occurrence; each is lowercase, free of separators, longer than two
      characters, and not a stop word. */
  function ExtractKeywords(issue: IssueData): (r: seq<string>)
    ensures forall i :: 0 <= i < |r| ==> |r[i]| > 2 && r[i] !in StopWords
    ensures forall i :: 0 <= i < |r| ==> CleanToken(r[i])
    ensures NoDuplicates(r)
    ensures forall w :: w in r <==> w in Tokens(issue) && Keep(w)
    ensures forall i, j :: 0 <= i < j < |r| ==> FirstIndex(Words(issue), r[i]) < FirstIndex(Words(issue), r[j])
  {
    var ts := Tokens(issue);
    KeywordsOf(ts);
    Dedup(FilterKeep(ts))
  }

  /** The keyword facts for any list of clean tokens. */
  lemma KeywordsOf(ts: seq<string>)
    requires forall i :: 0 <= i < |ts| ==> CleanToken(ts[i])
    ensures var r := Dedup(FilterKeep(ts));
      && (forall i :: 0 <= i < |r| ==> |r[i]| > 2 && r[i] !in StopWords && CleanToken(r[i]))
      && NoDuplicates(r)
      && (forall w :: w in r <==> w in ts && Keep(w))
  {
    var words := FilterKeep(ts);
    var r := Dedup(words);
    forall i | 0 <= i < |r| ensures |r[i]| > 2 && r[i] !in StopWords && CleanToken(r[i]) {
      assert r[i] in words;
    }
  }

  /** The tracker search query: the title, a space, the labels joined by
      spaces, trimmed. */
  function SearchQuery(issue: IssueData): (q: string)
    ensures q == [] || (!IsWhitespace(q[0]) && !IsWhitespace(q[|q| - 1]))
  {
    Trim(issue.title + " " + Join(issue.labels, " "))
  }

  /** Without labels, the query is the (trimmed) title alone. */
  lemma QueryWithoutLabels(issue: IssueData)
    requires issue.labels == []
    requires issue.title != [] && !IsWhitespace(issue.title[0]) && !IsWhitespace(issue.title[|issue.title| - 1])
    ensures SearchQuery(issue) == issue.title
  {
    assert issue.title + " " + Join(issue.labels, " ") == issue.title + " ";
    TrimDropsTrailingSpace(issue.title);
  }

  /** With labels and no stray edge whitespace, nothing is trimmed. */
  lemma QueryWithLabels(issue: IssueData)
    requires issue.labels != []
    requires issue.title != [] && !IsWhitespace(issue.title[0])
    requires var j := Join(issue.labels, " "); j != [] && !IsWhitespace(j[|j| - 1])
    ensures SearchQuery(issue) == issue.title + " " + Join(issue.labels, " ")
  {
    var s := issue.title + " " + Join(issue.labels, " ");
    assert s[0] == issue.title[0] && s[|s| - 1] == Join(issue.labels, " ")[|Join(issue.labels, " ")| - 1];
    TrimClean(s);
  }

  const SimilarLimit: int := 5
  const CodeFileLimit: int := 3

  /** `gatherContext`: the two searches, each replaced by `[]` on failure. */
  function GatherContext(
    issue: IssueData,
    searchIssues: SearchArgs -> Result<seq<IssueNode>>,
    searchCode: CodeCall -> Result<seq<CodeSnippet>>): (ctx: EnrichmentContext)
    ensures |ctx.similarIssues| <= 5
    // the similar-ticket search: query, limit 5, team filter only for a truthy team id
    ensures var res := searchIssues(SearchArgs(SearchQuery(issue), 5,
                                                if Truthy(issue.teamId) then issue.teamId else None));
      && (res.Fail? ==> ctx.similarIssues == [])
      && (res.Ok? ==> |ctx.similarIssues| <= |res.value| &&
                        forall i :: 0 <= i < |ctx.similarIssues| ==> CopiedFrom(ctx.similarIssues[i], res.value[i]))
    ensures var sim := SearchSimilarIssues(SearchQuery(issue), issue.teamId, Some(SimilarLimit), searchIssues);
      && (sim.Fail? ==> ctx.similarIssues == [])
      && (sim.Ok? ==> ctx.similarIssues == sim.value)
    // the code search, on the extracted keywords
    ensures var code := searchCode(CodeCall(ExtractKeywords(issue), 3));
      && (code.Fail? ==> ctx.codeSnippets == [])
      && (code.Ok? ==> ctx.codeSnippets == code.value)
  {
    var query := SearchQuery(issue);
    var keywords := ExtractKeywords(issue);
    var similar := SearchSimilarIssues(query, issue.teamId, Some(SimilarLimit), searchIssues).OrElse([]);
    var code := searchCode(CodeCall(keywords, CodeFileLimit)).OrElse([]);
    EnrichmentContext(similar, code)
  }

  /** Both searches failing still yields a context, with two empty lists. */
  lemma BothSearchesFail(
    issue: IssueData,
    searchIssues: SearchArgs -> Result<seq<IssueNode>>,
    searchCode: CodeCall -> Result<seq<CodeSnippet>>)
    requires forall a :: searchIssues(a).Fail?
    requires forall c :: searchCode(c).Fail?
    ensures GatherContext(issue, searchIssues, searchCode) == EnrichmentContext([], [])
  {
    var sargs := SearchArgsFor(SearchQuery(issue), issue.teamId, Some(SimilarLimit));
    assert searchIssues(sargs).Fail?;
    assert searchCode(CodeCall(ExtractKeywords(issue), CodeFileLimit)).Fail?;
  }
}

=== FILE: enrichment_pipeline.dfy ===
/** `runEnrichment`: fetch the ticket, gather context, ask the model, write
    the result back, and optionally report progress in comments.

    Every collaborator is a parameter. A run produces the trace of calls it
    made, in order, and how it ended: `Done`, or `Failed` with the error the
    source rethrows.
 */
module EnrichmentPipeline {
  import opened Outcomes
  import opened LinearClient
  import opened GithubClient
  import opened ContextGatherer
  import opened AiEnricher

  /** One call made by the pipeline. */
  datatype Call =
    | Comment(issueId: string, body: string)
    | FetchIssue(issueId: string)
    | Gather(issue: IssueData)
    | Enrich(issue: IssueData, context: EnrichmentContext)
    | Update(args: UpdateArgs)

  datatype Outcome = Done | Failed(error: Error)

  /** The calls made, in order, and how the run ended. */
  datatype Run = Run(calls: seq<Call>, outcome: Outcome)

  /** The outside world: the tracker (fetch, search, update, comment), the
      code search, the model and the JSON parser. */
  datatype Backends = Backends(
    getIssue: string -> Result<IssueData>,
    searchIssues: SearchArgs -> Result<seq<IssueNode>>,
    searchCode: CodeCall -> Result<seq<CodeSnippet>>,
    complete: string -> Result<seq<Block>>,
    parseJson: string -> Option<Parsed>,
    update: UpdateArgs -> Result<bool>,
    postComment: (string, string) -> Result<()>)

  /** The functions `runEnrichment` calls, one per stage. */
  datatype Services = Services(
    getIssue: string -> Result<IssueData>,
    gather: IssueData -> EnrichmentContext,
    enrich: (IssueData, EnrichmentContext) -> Result<EnrichmentResult>,
    update: UpdateArgs -> Result<bool>,
    postComment: (string, string) -> Result<()>)

  /** The stages as the source wires them: `gatherContext(issue)` and
      `enrichTicket(issue, context)` over the given back ends. */
  function Wire(b: Backends): Services {
    Services(
      b.getIssue,
      issue => GatherContext(issue, b.searchIssues, b.searchCode),
      (issue, context) => EnrichTicket(issue, Some(context), b.complete, b.parseJson),
      b.update,
      b.postComment)
  }

  const StartMessage: string := "Enrichment in progress..."
  const CompleteMessage: string := "Enrichment complete \U{2014} title and description updated."
  const FailureMessage: string := "Enrichment failed. Check the logs for details."

  /** The context gathered for a fetched ticket. */
  function ContextFor(issue: IssueData, svc: Services): EnrichmentContext {
    svc.gather(issue)
  }

  /** The model's enrichment of a fetched ticket. */
  function Enriched(issue: IssueData, svc: Services): Result<EnrichmentResult> {
    svc.enrich(issue, ContextFor(issue, svc))
  }

  /** The write-back, addressed by the fetched ticket's own id. */
  function UpdateArgsFor(issue: IssueData, res: EnrichmentResult): UpdateArgs {
    UpdateArgs(issue.id, res.title, res.description)
  }

  /** The `try` block: the four stages, then the completion comment. */
  function Stages(issueId: string, withFeedback: bool, svc: Services): (run: Run)
    ensures run.calls != [] && run.calls[0] == FetchIssue(issueId)
    // a run that ends normally made all four stage calls, and the completion
    // comment when asked for
    ensures run.outcome == Done ==> |run.calls| == if withFeedback then 5 else 4
    ensures run.outcome == Done && withFeedback ==> run.calls[4] == Comment(issueId, CompleteMessage)
    // and those four are the fetch, gathering and enrichment for the fetched
    // ticket, and the planned update
    ensures run.outcome == Done ==>
      && EnrichSucceeded(issueId, svc)
      && var issue := svc.getIssue(issueId).value;
         run.calls[..4] == [FetchIssue(issueId), Gather(issue), Enrich(issue, ContextFor(issue, svc)),
                            Update(PlannedUpdate(issueId, svc))]
  {
    match svc.getIssue(issueId)
    case Fail(e) => Run([FetchIssue(issueId)], Failed(e))
    case Ok(issue) =>
      var ctx := ContextFor(issue, svc);
      var asked := [FetchIssue(issueId), Gather(issue), Enrich(issue, ctx)];
      match Enriched(issue, svc)
      case Fail(e) => Run(asked, Failed(e))
      case Ok(res) =>
        var written := asked + [Update(UpdateArgsFor(issue, res))];
        match UpdateIssue(issue.id, res.title, res.description, svc.update)
        case Fail(e) => Run(written, Failed(e))
        case Ok(_) =>
          if withFeedback then
            var done := written + [Comment(issueId, CompleteMessage)];
            match svc.postComment(issueId, CompleteMessage)
            case Fail(e) => Run(done, Failed(e))
            case Ok(_) => Run(done, Done)
          else Run(written, Done)
  }

  /** `runEnrichment(issueId, withFeedback)` over the wired stages. */
  function RunEnrichment(issueId: string, withFeedback: bool, b: Backends): Run {
    Pipeline(issueId, withFeedback, Wire(b))
  }

  /** Over the wired stages: the model is asked with the context gathered for
      the fetched ticket, the write-back happens exactly when the model's
      reply for that context was accepted, and the run ends normally exactly
      when every step succeeds. */
  lemma RunEnrichmentWiring(issueId: string, withFeedback: bool, b: Backends)
    ensures var run := RunEnrichment(issueId, withFeedback, b);
      var st := StageCalls(run.calls);
      var fetched := b.getIssue(issueId);
      |st| > 1 ==> && fetched.Ok? && |st| > 2
                   && st[2] == Enrich(fetched.value, GatherContext(fetched.value, b.searchIssues, b.searchCode))
    ensures var run := RunEnrichment(issueId, withFeedback, b);
      var fetched := b.getIssue(issueId);
      UpdateCount(run.calls) == 1 <==>
        && Started(issueId, withFeedback, Wire(b)) && fetched.Ok?
        && EnrichTicket(fetched.value, Some(GatherContext(fetched.value, b.searchIssues, b.searchCode)),
                        b.complete, b.parseJson).Ok?
    ensures RunEnrichment(issueId, withFeedback, b).outcome == Done <==> AllSucceed(issueId, withFeedback, Wire(b))
  {
    RunStageCalls(issueId, withFeedback, Wire(b));
    RunUpdates(issueId, withFeedback, Wire(b));
    RunOutcome(issueId, withFeedback, Wire(b));
  }

  /** The body of `runEnrichment` over any stage functions. The start comment
      is outside the `try`: its failure ends the run at once. A failure inside
      the `try` posts the failure comment, whose own failure is swallowed, and
      is then rethrown unchanged. */
  function Pipeline(issueId: string, withFeedback: bool, svc: Services): (run: Run)
    ensures withFeedback ==> run.calls != [] && run.calls[0] == Comment(issueId, StartMessage)
    ensures withFeedback && svc.postComment(issueId, StartMessage).Fail? ==>
              run == Run([Comment(issueId, StartMessage)], Failed(svc.postComment(issueId, StartMessage).error))
    ensures withFeedback && svc.postComment(issueId, StartMessage).Ok? && run.outcome.Failed? ==>
              run.calls[|run.calls| - 1] == Comment(issueId, FailureMessage)
  {
    var start := if withFeedback then [Comment(issueId, StartMessage)] else [];
    if withFeedback && svc.postComment(issueId, StartMessage).Fail? then
      Run(start, Failed(svc.postComment(issueId, StartMessage).error))
    else
      var body := Stages(issueId, withFeedback, svc);
      if body.outcome.Failed? && withFeedback then
        Run(start + body.calls + [Comment(issueId, FailureMessage)], body.outcome)
      else
        Run(start + body.calls, body.outcome)
  }

  // ----- views of a trace -----

  /** The stage calls of a trace, comments left out. */
  function StageCalls(calls: seq<Call>): (r: seq<Call>)
    ensures forall i :: 0 <= i < |r| ==> !r[i].Comment?
  {
    if calls == [] then []
    else (if calls[0].Comment? then [] else [calls[0]]) + StageCalls(calls[1..])
  }

  /** The comment bodies of a trace, in order. */
  function CommentBodies(calls: seq<Call>): seq<string> {
    if calls == [] then []
    else (if calls[0].Comment? then [calls[0].body] else []) + CommentBodies(calls[1..])
  }

  /** How many update calls a trace holds. */
  function UpdateCount(calls: seq<Call>): nat {
    if calls == [] then 0
    else (if calls[0].Update? then 1 else 0) + UpdateCount(calls[1..])
  }

  lemma {:induction false} StageCallsAppend(a: seq<Call>, b: seq<Call>)
    ensures StageCalls(a + b) == StageCalls(a) + StageCalls(b)
  {
    if a == [] {
      assert a + b == b;
    } else {
      assert (a + b)[0] == a[0];
      assert (a + b)[1..] == a[1..] + b;
      StageCallsAppend(a[1..], b);
    }
  }

  lemma {:induction false} CommentBodiesAppend(a: seq<Call>, b: seq<Call>)
    ensures CommentBodies(a + b) == CommentBodies(a) + CommentBodies(b)
  {
    if a == [] {
      assert a + b == b;
    } else {
      assert (a + b)[0] == a[0];
      assert (a + b)[1..] == a[1..] + b;
      CommentBodiesAppend(a[1..], b);
    }
  }

  lemma {:induction false} UpdateCountAppend(a: seq<Call>, b: seq<Call>)
    ensures UpdateCount(a + b) == UpdateCount(a) + UpdateCount(b)
  {
    if a == [] {
      assert a + b == b;
    } else {
      assert (a + b)[0] == a[0];
      assert (a + b)[1..] == a[1..] + b;
      UpdateCountAppend(a[1..], b);
    }
  }

  /** All three views distribute over concatenation. */
  lemma ViewsAppend(a: seq<Call>, b: seq<Call>)
    ensures StageCalls(a + b) == StageCalls(a) + StageCalls(b)
    ensures CommentBodies(a + b) == CommentBodies(a) + CommentBodies(b)
    ensures UpdateCount(a + b) == UpdateCount(a) + UpdateCount(b)
  {
    StageCallsAppend(a, b);
    CommentBodiesAppend(a, b);
    UpdateCountAppend(a, b);
  }

  /** Three stage calls in a row: no comment, no update among them. */
  lemma AskedViews(x: Call, y: Call, z: Call)
    requires !x.Comment? && !y.Comment? && !z.Comment?
    requires !x.Update? && !y.Update? && !z.Update?
    ensures StageCalls([x, y, z]) == [x, y, z]
    ensures CommentBodies([x, y, z]) == []
    ensures UpdateCount([x, y, z]) == 0
  {
    assert [x, y, z] == [x] + ([y] + [z]);
    ViewsAppend([y], [z]);
    ViewsAppend([x], [y] + [z]);
  }

  /** The start comment went through, or none was asked for. */
  predicate Started(issueId: string, withFeedback: bool, svc: Services) {
    withFeedback ==> svc.postComment(issueId, StartMessage).Ok?
  }

  /** The fetch and the enrichment succeeded. */
  predicate EnrichSucceeded(issueId: string, svc: Services) {
    svc.getIssue(issueId).Ok? && Enriched(svc.getIssue(issueId).value, svc).Ok?
  }

  /** The update call the pipeline makes once the enrichment succeeded. */
  function PlannedUpdate(issueId: string, svc: Services): UpdateArgs
    requires EnrichSucceeded(issueId, svc)
  {
    UpdateArgsFor(svc.getIssue(issueId).value, Enriched(svc.getIssue(issueId).value, svc).value)
  }

  /** The fetch, the enrichment and the update all succeeded. */
  predicate UpdateSucceeded(issueId: string, svc: Services) {
    EnrichSucceeded(issueId, svc) && svc.update(PlannedUpdate(issueId, svc)) == Ok(true)
  }

  /** Every step succeeds: the start comment (with feedback), the fetch, the
      enrichment, the update, and the completion comment (with feedback). */
  predicate AllSucceed(issueId: string, withFeedback: bool, svc: Services) {
    && Started(issueId, withFeedback, svc)
    && UpdateSucceeded(issueId, svc)
    && (withFeedback ==> svc.postComment(issueId, CompleteMessage).Ok?)
  }

  /** The stage calls of the `try` block: the fetch; then, once it returned,
      gathering and enrichment; then, once that returned, the update. */
  lemma StagesCalls(issueId: string, withFeedback: bool, svc: Services)
    ensures var st := StageCalls(Stages(issueId, withFeedback, svc).calls);
      var fetched := svc.getIssue(issueId);
      && (fetched.Fail? ==> st == [FetchIssue(issueId)])
      && (fetched.Ok? && !EnrichSucceeded(issueId, svc) ==>
            st == [FetchIssue(issueId), Gather(fetched.value), Enrich(fetched.value, ContextFor(fetched.value, svc))])
      && (EnrichSucceeded(issueId, svc) ==>
            st == [FetchIssue(issueId), Gather(fetched.value), Enrich(fetched.value, ContextFor(fetched.value, svc)),
                   Update(PlannedUpdate(issueId, svc))])
  {
    match svc.getIssue(issueId)
    case Fail(e) =>
      assert Stages(issueId, withFeedback, svc).calls == [FetchIssue(issueId)];
      assert StageCalls([FetchIssue(issueId)]) == [FetchIssue(issueId)];
    case Ok(issue) =>
      var asked := [FetchIssue(issueId), Gather(issue), Enrich(issue, ContextFor(issue, svc))];
      AskedViews(asked[0], asked[1], asked[2]);
      match Enriched(issue, svc)
      case Fail(e) =>
      case Ok(res) =>
        var u := [Update(UpdateArgsFor(issue, res))];
        var written := asked + u;
        StageCallsAppend(asked, u);
        if UpdateIssue(issue.id, res.title, res.description, svc.update).Ok? && withFeedback {
          StageCallsAppend(written, [Comment(issueId, CompleteMessage)]);
        }
  }

  /** The `try` block posts the completion comment only after a successful
      update, and updates once exactly when the enrichment succeeded. */
  lemma StagesComments(issueId: string, withFeedback: bool, svc: Services)
    ensures var body := Stages(issueId, withFeedback, svc);
      CommentBodies(body.calls) == if withFeedback && UpdateSucceeded(issueId, svc) then [CompleteMessage] else []
    ensures UpdateCount(Stages(issueId, withFeedback, svc).calls) == if EnrichSucceeded(issueId, svc) then 1 else 0
  {
    match svc.getIssue(issueId)
    case Fail(e) =>
      assert Stages(issueId, withFeedback, svc).calls == [FetchIssue(issueId)];
    case Ok(issue) =>
      var asked := [FetchIssue(issueId), Gather(issue), Enrich(issue, ContextFor(issue, svc))];
      AskedViews(asked[0], asked[1], asked[2]);
      match Enriched(issue, svc)
      case Fail(e) =>
      case Ok(res) =>
        var u := [Update(UpdateArgsFor(issue, res))];
        var written := asked + u;
        CommentBodiesAppend(asked, u);
        UpdateCountAppend(asked, u);
        if UpdateIssue(issue.id, res.title, res.description, svc.update).Ok? && withFeedback {
          CommentBodiesAppend(written, [Comment(issueId, CompleteMessage)]);
          UpdateCountAppend(written, [Comment(issueId, CompleteMessage)]);
        }
  }

  /** The stage calls of the whole run: the fetch once the start comment went
      through (or none was asked for); gathering and enrichment, over the
      fetched ticket, once the fetch returned; the update, addressed by the
      ticket's own id, once the enrichment returned. */
  lemma RunStageCalls(issueId: string, withFeedback: bool, svc: Services)
    ensures var run := Pipeline(issueId, withFeedback, svc);
      var st := StageCalls(run.calls);
      var fetched := svc.getIssue(issueId);
      && |st| <= 4
      && (st != [] <==> Started(issueId, withFeedback, svc))
      && (st != [] ==> st[0] == FetchIssue(issueId))
      && (|st| > 1 <==> Started(issueId, withFeedback, svc) && fetched.Ok?)
      && (|st| > 1 ==> |st| > 2 && st[1] == Gather(fetched.value)
                       && st[2] == Enrich(fetched.value, ContextFor(fetched.value, svc)))
      && (|st| > 3 <==> Started(issueId, withFeedback, svc) && EnrichSucceeded(issueId, svc))
      && (|st| > 3 ==> st[3] == Update(PlannedUpdate(issueId, svc)))
  {
    var run := Pipeline(issueId, withFeedback, svc);
    if Started(issueId, withFeedback, svc) {
      var body := Stages(issueId, withFeedback, svc);
      StagesCalls(issueId, withFeedback, svc);
      RunViews(issueId, withFeedback, svc);
    } else {
      var start := [Comment(issueId, StartMessage)];
      assert run.calls == start;
      assert StageCalls(start) == [] && UpdateCount(start) == 0 && CommentBodies(start) == [StartMessage];
    }
  }

  /** Exactly one update call, made once the fetch and the enrichment succeeded. */
  lemma RunUpdates(issueId: string, withFeedback: bool, svc: Services)
    ensures var run := Pipeline(issueId, withFeedback, svc);
      UpdateCount(run.calls) == if Started(issueId, withFeedback, svc) && EnrichSucceeded(issueId, svc) then 1 else 0
  {
    var run := Pipeline(issueId, withFeedback, svc);
    if Started(issueId, withFeedback, svc) {
      var body := Stages(issueId, withFeedback, svc);
      StagesComments(issueId, withFeedback, svc);
      RunViews(issueId, withFeedback, svc);
    } else {
      var start := [Comment(issueId, StartMessage)];
      assert run.calls == start;
      assert StageCalls(start) == [] && UpdateCount(start) == 0 && CommentBodies(start) == [StartMessage];
    }
  }

  /** The comments posted, in order: the start comment, the completion comment
      after a successful update, the failure comment when the run fails. */
  lemma RunComments(issueId: string, withFeedback: bool, svc: Services)
    ensures var run := Pipeline(issueId, withFeedback, svc);
      CommentBodies(run.calls) ==
        if !withFeedback then []
        else if !Started(issueId, withFeedback, svc) then [StartMessage]
        else [StartMessage]
             + (if UpdateSucceeded(issueId, svc) then [CompleteMessage] else [])
             + (if run.outcome.Failed? then [FailureMessage] else [])
  {
    var run := Pipeline(issueId, withFeedback, svc);
    if Started(issueId, withFeedback, svc) {
      var body := Stages(issueId, withFeedback, svc);
      StagesComments(issueId, withFeedback, svc);
      RunViews(issueId, withFeedback, svc);
    } else {
      var start := [Comment(issueId, StartMessage)];
      assert run.calls == start;
      assert StageCalls(start) == [] && UpdateCount(start) == 0 && CommentBodies(start) == [StartMessage];
    }
  }

  /** Once started, the run's views are the `try` block's, with the start and
      failure comments added around them. */
  lemma RunViews(issueId: string, withFeedback: bool, svc: Services)
    requires Started(issueId, withFeedback, svc)
    ensures var run := Pipeline(issueId, withFeedback, svc);
      var body := Stages(issueId, withFeedback, svc);
      && StageCalls(run.calls) == StageCalls(body.calls)
      && UpdateCount(run.calls) == UpdateCount(body.calls)
      && run.outcome == body.outcome
      && CommentBodies(run.calls)
         == (if withFeedback then [StartMessage] else [])
            + CommentBodies(body.calls)
            + (if withFeedback && body.outcome.Failed? then [FailureMessage] else [])
  {
    var body := Stages(issueId, withFeedback, svc);
    var start := if withFeedback then [Comment(issueId, StartMessage)] else [];
    assert StageCalls(start) == [] && UpdateCount(start) == 0;
    assert CommentBodies(start) == if withFeedback then [StartMessage] else [];
    ViewsAppend(start, body.calls);
    if body.outcome.Failed? && withFeedback {
      var fail := [Comment(issueId, FailureMessage)];
      ViewsAppend(start + body.calls, fail);
      assert StageCalls(fail) == [] && UpdateCount(fail) == 0 && CommentBodies(fail) == [FailureMessage];
    } else {
      assert CommentBodies(start + body.calls) + [] == CommentBodies(start + body.calls);
    }
  }

  /** Without feedback no comment is ever posted. */
  lemma NoFeedbackNoComments(issueId: string, svc: Services)
    ensures forall c :: c in Pipeline(issueId, false, svc).calls ==> !c.Comment?
  {
    var calls := Pipeline(issueId, false, svc).calls;
    RunComments(issueId, false, svc);
    forall c | c in calls ensures !c.Comment? {
      if c.Comment? {
        CommentListed(calls, c);
      }
    }
  }

  /** A comment in a trace shows up among its comment bodies. */
  lemma {:induction false} CommentListed(calls: seq<Call>, c: Call)
    requires c in calls && c.Comment?
    ensures c.body in CommentBodies(calls)
  {
    if calls[0] != c {
      CommentListed(calls[1..], c);
    }
  }

  /** The run ends normally exactly when every step succeeds, and otherwise
      fails with the error of the first step that failed, whatever the
      failure comment's own outcome. */
  lemma RunOutcome(issueId: string, withFeedback: bool, svc: Services)
    ensures var run := Pipeline(issueId, withFeedback, svc);
      var started := svc.postComment(issueId, StartMessage);
      var fetched := svc.getIssue(issueId);
      && (run.outcome == Done <==> AllSucceed(issueId, withFeedback, svc))
      && (withFeedback && started.Fail? ==> run.outcome == Failed(started.error))
      && (Started(issueId, withFeedback, svc) && fetched.Fail? ==> run.outcome == Failed(fetched.error))
      && (Started(issueId, withFeedback, svc) && fetched.Ok? && Enriched(fetched.value, svc).Fail? ==>
            run.outcome == Failed(Enriched(fetched.value, svc).error))
      && (Started(issueId, withFeedback, svc) && EnrichSucceeded(issueId, svc) ==>
            var res := svc.update(PlannedUpdate(issueId, svc));
            && (res.Fail? ==> run.outcome == Failed(res.error))
            && (res == Ok(false) ==> run.outcome == Failed(UpdateRejected(fetched.value.id))))
      && (withFeedback && Started(issueId, withFeedback, svc) && UpdateSucceeded(issueId, svc) ==>
            var done := svc.postComment(issueId, CompleteMessage);
            done.Fail? ==> run.outcome == Failed(done.error))
  {
  }

  /** A failure comment that itself fails changes nothing: the outcome does
      not depend on the tracker's answer to it. */
  lemma FailureCommentSwallowed(issueId: string, withFeedback: bool, svc: Services,
                                postComment: (string, string) -> Result<()>)
    requires forall a, b :: (a, b) != (issueId, FailureMessage) ==> postComment(a, b) == svc.postComment(a, b)
    ensures Pipeline(issueId, withFeedback, svc.(postComment := postComment))
         == Pipeline(issueId, withFeedback, svc)
  {
    var other := svc.(postComment := postComment);
    assert StartMessage != FailureMessage && CompleteMessage != FailureMessage;
    assert postComment(issueId, StartMessage) == svc.postComment(issueId, StartMessage);
    assert postComment(issueId, CompleteMessage) == svc.postComment(issueId, CompleteMessage);
    assert Stages(issueId, withFeedback, other) == Stages(issueId, withFeedback, svc);
  }

  /** A failed completion comment comes after a successful update, yet the
      run still posts the failure comment and fails with that error. */
  lemma CompletionCommentFailure(issueId: string, svc: Services)
    requires svc.postComment(issueId, StartMessage).Ok? && UpdateSucceeded(issueId, svc)
    requires svc.postComment(issueId, CompleteMessage).Fail?
    ensures var run := Pipeline(issueId, true, svc);
      && run.outcome == Failed(svc.postComment(issueId, CompleteMessage).error)
      && CommentBodies(run.calls) == [StartMessage, CompleteMessage, FailureMessage]
      && UpdateCount(run.calls) == 1
  {
    RunUpdates(issueId, true, svc);
    RunComments(issueId, true, svc);
  }
}

=== FILE: github_client.dfy ===
/** `searchRelevantCode`: search one repository for the top keywords, fetch
    each hit, and keep the files that came back with content. The code host
    (search, content fetch, base64 decoding) is a parameter.
 */
module GithubClient {
  import opened Outcomes
  import opened Text

  /** A file excerpt handed to the prompt. */
  datatype CodeSnippet = CodeSnippet(path: string, content: string, matchReason: string)

  /** The arguments of `search.code({ q, per_page })`. */
  datatype CodeQuery = CodeQuery(q: string, perPage: int)

  /** The arguments of `repos.getContent({ owner, repo, path })`. */
  datatype ContentRequest = ContentRequest(owner: string, repo: string, path: string)

  /** The code host: whether a token is configured, the code search (the
      paths of its items, in result order), the content fetch (`None` when the
      response has no `content` field or a null one) and base64 decoding. */
  datatype CodeHost = CodeHost(
    hasToken: bool,
    searchCode: CodeQuery -> Result<seq<string>>,
    getContent: ContentRequest -> Result<Option<string>>,
    decodeBase64: string -> string)

  const DefaultMaxFiles: int := 3
  const DefaultMaxContentLength: int := 2000

  /** `keywords.slice(0, 3)` */
  function TopKeywords(keywords: seq<string>): (top: seq<string>)
    ensures top <= keywords
    ensures |top| == if |keywords| < 3 then |keywords| else 3
  {
    SliceTo(keywords, 3)
  }

  /** The search query: the top keywords, then the repository qualifier. */
  function Query(repo: string, keywords: seq<string>): (q: string)
    ensures Join(TopKeywords(keywords), " ") <= q
    ensures |q| >= 6 + |repo| && q[|q| - |repo| - 6..] == " repo:" + repo
    // nothing lies between the keywords and the qualifier
    ensures |q| == |Join(TopKeywords(keywords), " ")| + 6 + |repo|
  {
    Join(TopKeywords(keywords), " ") + " repo:" + repo
  }

  /** The human-readable reason attached to every snippet. */
  function MatchReason(keywords: seq<string>): (m: string)
    ensures "Matched: " <= m
    ensures m[9..] == Join(TopKeywords(keywords), ", ")
  {
    "Matched: " + Join(TopKeywords(keywords), ", ")
  }

  /** `const [owner, repoName] = repo.split("/")`, accepted only when both are
      truthy. A third segment (`a/b/c`) is ignored, as destructuring does. */
  function SplitRepo(repo: string): (r: Option<(string, string)>)
    ensures r.Some? ==> '/' !in r.value.0 && '/' !in r.value.1
    ensures r.Some? <==> |SplitOn(repo, '/')| >= 2 && SplitOn(repo, '/')[0] != [] && SplitOn(repo, '/')[1] != []
    ensures r.Some? ==> r.value.0 + "/" + r.value.1 <= repo
    // the name runs to the next `/` or to the end
    ensures r.Some? ==> var k := |r.value.0| + 1 + |r.value.1|; k == |repo| || repo[k] == '/'
  {
    var parts := SplitOn(repo, '/');
    if parts[0] != [] && |parts| > 1 && parts[1] != [] then
      SplitOnJoin(repo, '/');
      var rest := parts[1..];
      assert Join(parts, "/") == parts[0] + "/" + Join(rest, "/");
      assert |rest| == 1 ==> Join(rest, "/") == parts[1];
      assert |rest| > 1 ==> Join(rest, "/") == parts[1] + "/" + Join(rest[1..], "/");
      Some((parts[0], parts[1]))
    else None
  }

  /** The snippet for one search hit: `None` when the fetch throws or the
      response carries no (or empty) content. */
  function FetchSnippet(host: CodeHost, owner: string, name: string, path: string,
                        maxContentLength: int, reason: string): (r: Option<CodeSnippet>)
    ensures var res := host.getContent(ContentRequest(owner, name, path));
      r.Some? <==> res.Ok? && res.value.Some? && res.value.value != ""
    // the snippet is the leading `maxContentLength` characters of the decoded file
    ensures r.Some? ==>
      var decoded := host.decodeBase64(host.getContent(ContentRequest(owner, name, path)).value.value);
      && r.value.path == path && r.value.matchReason == reason
      && r.value.content <= decoded
      && (maxContentLength >= 0 ==>
            |r.value.content| == if maxContentLength < |decoded| then maxContentLength else |decoded|)
      // a negative limit drops that many characters from the end
      && (maxContentLength < 0 ==>
            |r.value.content| == if |decoded| + maxContentLength > 0 then |decoded| + maxContentLength else 0)
  {
    match host.getContent(ContentRequest(owner, name, path))
    case Ok(Some(c)) =>
      if c != "" then Some(CodeSnippet(path, SliceTo(host.decodeBase64(c), maxContentLength), reason))
      else None
    case _ => None
  }

  /** `s` is what fetching its own path gives. */
  predicate Fetched(host: CodeHost, owner: string, name: string, maxContentLength: int, reason: string,
                    s: CodeSnippet) {
    FetchSnippet(host, owner, name, s.path, maxContentLength, reason) == Some(s)
  }

  function Paths(snippets: seq<CodeSnippet>): (ps: seq<string>)
    ensures |ps| == |snippets|
    ensures forall i :: 0 <= i < |ps| ==> ps[i] == snippets[i].path
  {
    if snippets == [] then [] else [snippets[0].path] + Paths(snippets[1..])
  }

  /** Fetch every hit and drop the ones that failed (`filter(r !== null)`). */
  function FetchAll(host: CodeHost, owner: string, name: string, paths: seq<string>,
                    maxContentLength: int, reason: string): (r: seq<CodeSnippet>)
    ensures IsSubsequence(Paths(r), paths)
    // every snippet is its path's fetch result, and a hit is kept exactly when its fetch succeeds
    ensures forall i :: 0 <= i < |r| ==> Fetched(host, owner, name, maxContentLength, reason, r[i])
    ensures forall p :: p in Paths(r) <==> p in paths && FetchSnippet(host, owner, name, p, maxContentLength, reason).Some?
  {
    if paths == [] then []
    else
      var rest := FetchAll(host, owner, name, paths[1..], maxContentLength, reason);
      assert forall i :: 1 <= i < |paths| ==> paths[i] == paths[1..][i - 1];
      assert forall p :: p in paths <==> p == paths[0] || p in paths[1..];
      match FetchSnippet(host, owner, name, paths[0], maxContentLength, reason)
      case Some(s) =>
        var r := [s] + rest;
        assert Paths(r) == [s.path] + Paths(rest);
        assert Paths(r)[1..] == Paths(rest);
        r
      case None =>
        rest
  }

  /** A hit whose fetch succeeds is kept as often as it occurs among the hits;
      one whose fetch fails, never. */
  lemma {:induction false} FetchAllCounts(host: CodeHost, owner: string, name: string, paths: seq<string>,
                                          maxContentLength: int, reason: string, p: string)
    ensures multiset(Paths(FetchAll(host, owner, name, paths, maxContentLength, reason)))[p]
         == if FetchSnippet(host, owner, name, p, maxContentLength, reason).Some? then multiset(paths)[p] else 0
  {
    if paths != [] {
      var rest := FetchAll(host, owner, name, paths[1..], maxContentLength, reason);
      FetchAllCounts(host, owner, name, paths[1..], maxContentLength, reason, p);
      assert paths == [paths[0]] + paths[1..];
      assert multiset(paths) == multiset([paths[0]]) + multiset(paths[1..]);
      match FetchSnippet(host, owner, name, paths[0], maxContentLength, reason)
      case Some(s) =>
        assert Paths([s] + rest) == [s.path] + Paths(rest);
        assert multiset([s.path] + Paths(rest)) == multiset([s.path]) + multiset(Paths(rest));
      case None =>
    }
  }

  /** When every fetch succeeds, every hit is kept, in order. */
  lemma {:induction false} FetchAllKeepsAll(host: CodeHost, owner: string, name: string, paths: seq<string>,
                                            maxContentLength: int, reason: string)
    requires forall i :: 0 <= i < |paths| ==> FetchSnippet(host, owner, name, paths[i], maxContentLength, reason).Some?
    ensures Paths(FetchAll(host, owner, name, paths, maxContentLength, reason)) == paths
  {
    if paths != [] {
      var s := FetchSnippet(host, owner, name, paths[0], maxContentLength, reason);
      assert s.Some?;
      var rest := FetchAll(host, owner, name, paths[1..], maxContentLength, reason);
      assert forall i :: 1 <= i < |paths| ==> paths[i] == paths[1..][i - 1];
      FetchAllKeepsAll(host, owner, name, paths[1..], maxContentLength, reason);
      assert FetchAll(host, owner, name, paths, maxContentLength, reason) == [s.value] + rest;
      assert Paths([s.value] + rest)[1..] == Paths(rest);
      assert s.value.path == paths[0];
    }
  }

  /** When every fetch fails, nothing is kept. */
  lemma {:induction false} FetchAllDropsAll(host: CodeHost, owner: string, name: string, paths: seq<string>,
                                            maxContentLength: int, reason: string)
    requires forall i :: 0 <= i < |paths| ==> FetchSnippet(host, owner, name, paths[i], maxContentLength, reason).None?
    ensures FetchAll(host, owner, name, paths, maxContentLength, reason) == []
  {
    if paths != [] {
      assert FetchSnippet(host, owner, name, paths[0], maxContentLength, reason).None?;
      assert forall i :: 1 <= i < |paths| ==> paths[i] == paths[1..][i - 1];
      FetchAllDropsAll(host, owner, name, paths[1..], maxContentLength, reason);
    }
  }

  /** `searchRelevantCode(repo, keywords, maxFiles = 3, maxContentLength = 2000)`. */
  function SearchRelevantCode(host: CodeHost, repo: string, keywords: seq<string>,
                              maxFiles: Option<int>, maxContentLength: Option<int>): (r: seq<CodeSnippet>)
    // no token, a malformed `owner/repo`, or a failed search: no snippets, no error
    ensures !host.hasToken ==> r == []
    ensures SplitRepo(repo).None? ==> r == []
    ensures var files := maxFiles.GetOr(DefaultMaxFiles);
      host.searchCode(CodeQuery(Query(repo, keywords), files)).Fail? ==> r == []
    // bounded in number and in size
    ensures var files := maxFiles.GetOr(DefaultMaxFiles);
      files >= 0 ==> |r| <= files
    ensures var limit := maxContentLength.GetOr(DefaultMaxContentLength);
      limit >= 0 ==> forall i :: 0 <= i < |r| ==> |r[i].content| <= limit
    ensures forall i :: 0 <= i < |r| ==> r[i].matchReason == MatchReason(keywords)
    // after a successful search: the first `maxFiles` hits, in order, each kept
    // exactly when its fetch succeeds, as the snippet that fetch produced
    ensures var files := maxFiles.GetOr(DefaultMaxFiles);
      var limit := maxContentLength.GetOr(DefaultMaxContentLength);
      var res := host.searchCode(CodeQuery(Query(repo, keywords), files));
      host.hasToken && SplitRepo(repo).Some? && res.Ok? ==>
        var owner := SplitRepo(repo).value.0;
        var name := SplitRepo(repo).value.1;
        var hits := SliceTo(res.value, files);
        && IsSubsequence(Paths(r), hits)
        && (forall i :: 0 <= i < |r| ==> Fetched(host, owner, name, limit, MatchReason(keywords), r[i]))
        && (forall p :: p in Paths(r) <==>
              p in hits && FetchSnippet(host, owner, name, p, limit, MatchReason(keywords)).Some?)
  {
    var files := maxFiles.GetOr(DefaultMaxFiles);
    var limit := maxContentLength.GetOr(DefaultMaxContentLength);
    if !host.hasToken then []
    else
      match SplitRepo(repo)
      case None => []
      case Some((owner, name)) =>
        match host.searchCode(CodeQuery(Query(repo, keywords), files))
        case Fail(_) => []
        case Ok(items) =>
          var hits := SliceTo(items, files);
          var r := FetchAll(host, owner, name, hits, limit, MatchReason(keywords));
          assert |Paths(r)| <= |hits| by { SubsequenceLength(Paths(r), hits); }
          r
  }

  /** After a successful search, a hit among the first `maxFiles` whose fetch
      succeeds is kept as often as it occurs there; any other path, never. */
  lemma SearchRelevantCodeCounts(host: CodeHost, repo: string, keywords: seq<string>,
                                 maxFiles: Option<int>, maxContentLength: Option<int>, p: string)
    ensures var files := maxFiles.GetOr(DefaultMaxFiles);
      var limit := maxContentLength.GetOr(DefaultMaxContentLength);
      var res := host.searchCode(CodeQuery(Query(repo, keywords), files));
      host.hasToken && SplitRepo(repo).Some? && res.Ok? ==>
        var owner := SplitRepo(repo).value.0;
        var name := SplitRepo(repo).value.1;
        multiset(Paths(SearchRelevantCode(host, repo, keywords, maxFiles, maxContentLength)))[p]
          == if FetchSnippet(host, owner, name, p, limit, MatchReason(keywords)).Some?
             then multiset(SliceTo(res.value, files))[p] else 0
  {
    var files := maxFiles.GetOr(DefaultMaxFiles);
    var limit := maxContentLength.GetOr(DefaultMaxContentLength);
    var res := host.searchCode(CodeQuery(Query(repo, keywords), files));
    if host.hasToken && SplitRepo(repo).Some? && res.Ok? {
      var owner := SplitRepo(repo).value.0;
      var name := SplitRepo(repo).value.1;
      FetchAllCounts(host, owner, name, SliceTo(res.value, files), limit, MatchReason(keywords), p);
    }
  }
}

=== FILE: linear_client.dfy ===
/** The pure logic of the issue-tracker client: bounding and copying search
    results, finding a GitHub repository among attachment URLs, and checking
    the update payload. The tracker SDK itself is a parameter.
 */
module LinearClient {
  import opened Outcomes
  import opened Text

  /** A ticket as `getIssue` returns it. */
  datatype IssueData = IssueData(
    id: string,
    identifier: string,
    title: string,
    description: Option<string>,
    state: Option<string>,
    labels: seq<string>,
    assignee: Option<string>,
    project: Option<string>,
    teamId: Option<string>)

  /** A past ticket returned by the similarity search. */
  datatype SimilarIssue = SimilarIssue(
    identifier: string,
    title: string,
    description: Option<string>,
    state: Option<string>)

  /** A search hit as the SDK hands it over: its workflow state is a lazy
      relation whose fetch may itself fail. */
  datatype IssueNode = IssueNode(
    identifier: string,
    title: string,
    description: Option<string>,
    state: Result<Option<string>>)

  /** The arguments of `searchIssues(query, { first, teamId })`; `teamId` is
      `None` when the key is left out of the options object. */
  datatype SearchArgs = SearchArgs(query: string, first: int, teamId: Option<string>)

  /** An attachment of a ticket; its URL may be missing. */
  datatype Attachment = Attachment(url: Option<string>)

  /** The arguments of `updateIssue(issueId, { title, description })`. */
  datatype UpdateArgs = UpdateArgs(issueId: string, title: string, description: string)

  const DefaultMaxResults: int := 5

  /** The search options: `first` is `maxResults ?? 5`, and the team filter is
      passed only for a truthy team id. */
  function SearchArgsFor(query: string, teamId: Option<string>, maxResults: Option<int>): (a: SearchArgs)
    ensures a.query == query
    ensures a.first == (if maxResults.Some? then maxResults.value else DefaultMaxResults)
    ensures a.teamId.Some? <==> Truthy(teamId)
    ensures a.teamId.Some? ==> a.teamId == teamId
  {
    SearchArgs(query, maxResults.GetOr(DefaultMaxResults), if Truthy(teamId) then teamId else None)
  }

  /** `r` carries the identifier, title, description and state name of `n`. */
  predicate CopiedFrom(r: SimilarIssue, n: IssueNode) {
    && n.state.Ok?
    && r.identifier == n.identifier
    && r.title == n.title
    && r.description == n.description
    && r.state == n.state.value
  }

  /** The `for (const node of nodes)` loop: awaits each node's state in turn;
      the first state fetch that fails aborts the whole loop with its error. */
  function CopyNodes(nodes: seq<IssueNode>): (r: Result<seq<SimilarIssue>>)
    ensures r.Ok? <==> forall i :: 0 <= i < |nodes| ==> nodes[i].state.Ok?
    ensures r.Ok? ==> |r.value| == |nodes|
    ensures r.Ok? ==> forall i :: 0 <= i < |nodes| ==> CopiedFrom(r.value[i], nodes[i])
    ensures r.Fail? ==> exists i :: 0 <= i < |nodes| && nodes[i].state == Fail(r.error)
                                     && forall j :: 0 <= j < i ==> nodes[j].state.Ok?
  {
    if nodes == [] then Ok([])
    else
      var n := nodes[0];
      match n.state
      case Fail(e) => Fail(e)
      case Ok(st) =>
        match CopyNodes(nodes[1..])
        case Fail(e) =>
          assert forall i :: 1 <= i < |nodes| ==> nodes[i] == nodes[1..][i - 1];
          Fail(e)
        case Ok(rest) =>
          Ok([SimilarIssue(n.identifier, n.title, n.description, st)] + rest)
  }

  /** `searchSimilarIssues(query, { teamId, maxResults })`. */
  function SearchSimilarIssues(
    query: string,
    teamId: Option<string>,
    maxResults: Option<int>,
    searchIssues: SearchArgs -> Result<seq<IssueNode>>): (r: Result<seq<SimilarIssue>>)
    // a rejected search is rethrown unchanged
    ensures var res := searchIssues(SearchArgsFor(query, teamId, maxResults));
      res.Fail? ==> r == Fail(res.error)
    // never more than `max` results, with `max` defaulting to 5
    ensures var max := maxResults.GetOr(DefaultMaxResults);
      r.Ok? && max >= 0 ==> |r.value| <= max
    // the results are the leading search hits, in order, copied field by field
    ensures var res := searchIssues(SearchArgsFor(query, teamId, maxResults));
      r.Ok? ==> && res.Ok? && |r.value| <= |res.value|
                && forall i :: 0 <= i < |r.value| ==> CopiedFrom(r.value[i], res.value[i])
    // every hit's state is awaited, so one failed state fetch rejects the whole
    // search, with the error of the first failing hit
    ensures var res := searchIssues(SearchArgsFor(query, teamId, maxResults));
      res.Ok? ==> (r.Ok? <==> forall i :: 0 <= i < |res.value| ==> res.value[i].state.Ok?)
    ensures var res := searchIssues(SearchArgsFor(query, teamId, maxResults));
      res.Ok? && r.Fail? ==> exists i :: 0 <= i < |res.value| && res.value[i].state == Fail(r.error)
                                       && forall j :: 0 <= j < i ==> res.value[j].state.Ok?
    // with every state fetched, exactly the first `max` hits are kept
    ensures var res := searchIssues(SearchArgsFor(query, teamId, maxResults));
      var max := maxResults.GetOr(DefaultMaxResults);
      res.Ok? && max >= 0 && (forall i :: 0 <= i < |res.value| ==> res.value[i].state.Ok?) ==>
        r.Ok? && |r.value| == (if max < |res.value| then max else |res.value|)
  {
    var max := maxResults.GetOr(DefaultMaxResults);
    match searchIssues(SearchArgsFor(query, teamId, maxResults))
    case Fail(e) => Fail(e)
    case Ok(nodes) =>
      match CopyNodes(nodes)
      case Fail(e) => Fail(e)
      case Ok(all) => Ok(SliceTo(all, max))
  }

  /** A path segment of `[^/]+`. */
  predicate IsSegment(x: string) {
    x != [] && '/' !in x
  }

  /** `owner/repo`: exactly two non-empty slash-free segments. */
  predicate IsRepoPath(x: string) {
    var parts := SplitOn(x, '/');
    |parts| == 2 && IsSegment(parts[0]) && IsSegment(parts[1])
  }

  const GithubHost: string := "github.com/"

  /** The `[^/]+\/[^/]+` part at the start of `t`, both runs greedy: the
      first must be followed by `/`, the second runs to the next `/` or the end. */
  function OwnerRepoAt(t: string): (m: Option<string>)
    ensures m.Some? ==> IsRepoPath(m.value) && m.value <= t
    ensures m.Some? ==> |m.value| == |t| || t[|m.value|] == '/'
  {
    var a := RunEnd(t, 0, CharIsNot('/'));
    if 0 < a < |t| then
      var b := RunEnd(t, a + 1, CharIsNot('/'));
      if a + 1 < b then
        assert t[..b] == t[..a] + ['/'] + t[a + 1..b];
        SplitOnPair(t[..a], t[a + 1..b], '/');
        Some(t[..b])
      else None
    else None
  }

  /** The capture of `/github\.com\/([^/]+\/[^/]+)/` when the match starts at
      index `i`. */
  function MatchAt(s: string, i: nat): (m: Option<string>)
    requires i <= |s|
    ensures m.Some? ==> IsRepoPath(m.value)
    // the capture sits right after the host, and the second segment is maximal
    ensures m.Some? ==> GithubHost + m.value <= s[i..]
    ensures m.Some? ==> var e := i + |GithubHost| + |m.value|; e == |s| || s[e] == '/'
  {
    if GithubHost <= s[i..] then
      var t := s[i + |GithubHost|..];
      assert s[i..] == GithubHost + t;
      OwnerRepoAt(t)
    else None
  }

  /** Wherever the host is followed by an `owner/repo` path, there is a match. */
  lemma MatchAtComplete(s: string, i: nat, x: string)
    requires i <= |s| && IsRepoPath(x) && GithubHost + x <= s[i..]
    ensures MatchAt(s, i).Some?
  {
    var t := s[i + |GithubHost|..];
    assert s[i..][..|GithubHost|] == GithubHost;
    assert x <= t;
    OwnerRepoComplete(t, x);
  }

  lemma OwnerRepoComplete(t: string, x: string)
    requires IsRepoPath(x) && x <= t
    ensures OwnerRepoAt(t).Some?
  {
    var parts := SplitOn(x, '/');
    SplitOnJoin(x, '/');
    assert Join(parts, "/") == parts[0] + "/" + parts[1];
    var c := |parts[0]|;
    assert forall j :: 0 <= j < c ==> t[j] == parts[0][j];
    assert t[c] == '/';
    var a := RunEnd(t, 0, CharIsNot('/'));
    assert forall j :: 0 <= j < c ==> CharIsNot('/')(t[j]);
    assert a == c;
    assert t[a + 1] == parts[1][0];
  }

  /** The leftmost match at or after index `i` (`String.prototype.match`
      without the global flag). */
  function FindFrom(s: string, i: nat): (m: Option<string>)
    requires i <= |s|
    ensures m.Some? ==> IsRepoPath(m.value)
    ensures m.None? ==> forall k :: i <= k <= |s| ==> MatchAt(s, k).None?
    decreases |s| - i
  {
    var here := MatchAt(s, i);
    if here.Some? then here
    else if i == |s| then None
    else
      var m := FindFrom(s, i + 1);
      assert m.None? ==> forall k :: i <= k <= |s| ==> MatchAt(s, k).None? by {
        if m.None? {
          forall k | i <= k <= |s| ensures MatchAt(s, k).None? {
            if k > i {}
          }
        }
      }
      m
  }

  /** A match found is the one at the leftmost matching position. */
  lemma {:induction false} FindFromLeftmost(s: string, i: nat)
    requires i <= |s| && FindFrom(s, i).Some?
    ensures exists k :: i <= k <= |s| && MatchAt(s, k) == FindFrom(s, i)
                        && forall j :: i <= j < k ==> MatchAt(s, j).None?
    decreases |s| - i
  {
    if MatchAt(s, i).None? {
      FindFromLeftmost(s, i + 1);
      var k :| i + 1 <= k <= |s| && MatchAt(s, k) == FindFrom(s, i + 1)
               && forall j :: i + 1 <= j < k ==> MatchAt(s, j).None?;
      assert forall j :: i <= j < k ==> MatchAt(s, j).None?;
    } else {
      assert MatchAt(s, i) == FindFrom(s, i);
    }
  }

  /** The repository captured from one URL, if the pattern matches anywhere. */
  function MatchRepo(url: string): (m: Option<string>)
    ensures m.Some? ==> IsRepoPath(m.value)
    ensures m.None? <==> forall k :: 0 <= k <= |url| ==> MatchAt(url, k).None?
  {
    var m := FindFrom(url, 0);
    if m.Some? then FindFromLeftmost(url, 0); m else m
  }

  /** The URL of `a` is present, non-empty, and contains a GitHub repo. */
  predicate Matches(a: Attachment) {
    Truthy(a.url) && MatchRepo(a.url.value).Some?
  }

  /** The attachment loop: skip missing or empty URLs, return the capture from
      the first URL that matches, `None` (the source's `null`) when none does. */
  function FirstRepo(attachments: seq<Attachment>): (r: Option<string>)
    ensures r.Some? ==> IsRepoPath(r.value)
    ensures r.None? <==> forall i :: 0 <= i < |attachments| ==> !Matches(attachments[i])
  {
    if attachments == [] then None
    else
      var url := attachments[0].url;
      if !Truthy(url) then
        var r := FirstRepo(attachments[1..]);
        assert forall i :: 1 <= i < |attachments| ==> attachments[i] == attachments[1..][i - 1];
        r
      else
        match MatchRepo(url.value)
        case Some(repo) => Some(repo)
        case None =>
          var r := FirstRepo(attachments[1..]);
          assert forall i :: 1 <= i < |attachments| ==> attachments[i] == attachments[1..][i - 1];
          r
  }

  /** An attachment that does not match is skipped. */
  lemma FirstRepoSkip(attachments: seq<Attachment>)
    requires attachments != [] && !Matches(attachments[0])
    ensures FirstRepo(attachments) == FirstRepo(attachments[1..])
  {
  }

  /** When attachment `i` is the first that matches, the loop returns its capture. */
  lemma {:induction false} FirstRepoIsFirst(attachments: seq<Attachment>, i: nat)
    requires i < |attachments| && Matches(attachments[i])
    requires forall j :: 0 <= j < i ==> !Matches(attachments[j])
    ensures FirstRepo(attachments) == MatchRepo(attachments[i].url.value)
  {
    if i > 0 {
      var tail := attachments[1..];
      FirstRepoSkip(attachments);
      assert tail[i - 1] == attachments[i];
      forall j | 0 <= j < i - 1
        ensures !Matches(tail[j])
      {
        assert tail[j] == attachments[j + 1];
      }
      FirstRepoIsFirst(tail, i - 1);
    }
  }

  /** `getRepoFromAttachments`: a failure to load the issue or its
      attachments is rethrown; otherwise the first matching repository. */
  function GetRepoFromAttachments(attachments: Result<seq<Attachment>>): (r: Result<Option<string>>)
    ensures attachments.Fail? ==> r == Fail(attachments.error)
    ensures r.Ok? && r.value.Some? ==> IsRepoPath(r.value.value)
    ensures attachments.Ok? ==> r.Ok? && (r.value.None? <==> forall i :: 0 <= i < |attachments.value| ==> !Matches(attachments.value[i]))
  {
    match attachments
    case Fail(e) => Fail(e)
    case Ok(list) => Ok(FirstRepo(list))
  }

  /** `updateIssue`: the SDK's rejection is rethrown, and a payload that
      does not report success becomes an error naming the issue. */
  function UpdateIssue(issueId: string, title: string, description: string,
                       update: UpdateArgs -> Result<bool>): (r: Result<()>)
    ensures var res := update(UpdateArgs(issueId, title, description));
      && (r.Ok? <==> res == Ok(true))
      && (res == Ok(false) ==> r == Fail(UpdateRejected(issueId)))
      && (res.Fail? ==> r == Fail(res.error))
  {
    match update(UpdateArgs(issueId, title, description))
    case Fail(e) => Fail(e)
    case Ok(success) => if success then Ok(()) else Fail(UpdateRejected(issueId))
  }
}

=== FILE: linear_webhook.dfy ===
/** The tracker's webhook endpoint: signature check and the 401/202 answer.

    The HMAC is a parameter returning the raw MAC bytes; the JSON body is
    reduced to the two fields the handler reads plus its re-serialisation.
    The handler answers only; it starts no enrichment.
 */
module LinearWebhook {
  import opened Outcomes
  import opened Utf8

  /** The lower-case hex HMAC-SHA256 (RFC 2104) of the body under the secret. */
  function Digest(secret: string, rawBody: string, mac: (string, string) -> seq<byte>): (d: string)
    ensures IsAscii(d)
    // two hex digits per MAC byte
    ensures |d| == 2 * |mac(secret, rawBody)|
    ensures forall i :: 0 <= i < |d| ==> IsLowerHexDigit(d[i])
    ensures var m := mac(secret, rawBody);
      forall i :: 0 <= i < |m| ==> d[2 * i] == HexDigits[m[i] / 16] && d[2 * i + 1] == HexDigits[m[i] % 16]
  {
    Hex(mac(secret, rawBody))
  }

  /** `isValidSignature(rawBody, signatureHeader)`: no secret or no header is
      invalid; otherwise the UTF-8 bytes of the header must have the digest's
      length and then equal the digest's bytes. */
  function IsValidSignature(secret: Option<string>, rawBody: string, header: Option<string>,
                            mac: (string, string) -> seq<byte>): (valid: bool)
    ensures !Truthy(secret) || !Truthy(header) ==> !valid
    ensures (Truthy(secret) && Truthy(header)
             && |Encode(header.value)| != |Encode(Digest(secret.value, rawBody, mac))|) ==> !valid
    ensures valid <==> Truthy(secret) && Truthy(header) && header.value == Digest(secret.value, rawBody, mac)
  {
    if !Truthy(secret) || !Truthy(header) then false
    else
      var digest := Digest(secret.value, rawBody, mac);
      var expected := Encode(digest);
      var received := Encode(header.value);
      if |expected| != |received| then false
      else
        EncodeAsciiInjective(header.value, digest);
        expected == received
  }

  /** The parsed request body: its `type`, its `data.id` (each `None` when
      missing or null) and its `JSON.stringify` text. */
  datatype Payload = Payload(eventType: Option<string>, dataId: Option<string>, serialized: string)

  /** What `JSON.stringify({})` gives for a request without a body. */
  const EmptyObject: string := "{}"

  /** The JSON answer: an error message, or the acceptance record. */
  datatype Reply =
    | ErrorReply(error: string)
    | AcceptedReply(accepted: bool, eventType: string, issueId: Option<string>)

  datatype Response = Response(status: int, reply: Reply)

  const InvalidSignatureMessage: string := "Invalid Linear signature"
  const UnknownEvent: string := "unknown"

  /** The text the signature is computed over: the body re-serialised, or
      `{}` when there is none. */
  function RawBody(body: Option<Payload>): (r: string)
    ensures body.Some? ==> r == body.value.serialized
    ensures r == EmptyObject <==> body.None? || body.value.serialized == EmptyObject
  {
    if body.Some? then body.value.serialized else EmptyObject
  }

  /** `POST /webhooks/linear`. */
  function HandleWebhook(secret: Option<string>, body: Option<Payload>, header: Option<string>,
                         mac: (string, string) -> seq<byte>): (resp: Response)
    // rejected exactly when a secret is set and the signature is not its digest
    ensures resp.status == 401 <==>
              Truthy(secret) && !(Truthy(header) && header.value == Digest(secret.value, RawBody(body), mac))
    ensures resp.status == 401 ==> resp.reply == ErrorReply(InvalidSignatureMessage)
    ensures resp.status != 401 ==> resp.status == 202 && resp.reply.AcceptedReply? && resp.reply.accepted
    // the event type falls back to "unknown"; the issue id to null
    ensures resp.status == 202 ==>
              && (body.Some? && body.value.eventType.Some? ==> resp.reply.eventType == body.value.eventType.value)
              && (body.None? || body.value.eventType.None? ==> resp.reply.eventType == UnknownEvent)
              && resp.reply.issueId == (if body.Some? then body.value.dataId else None)
  {
    var raw := RawBody(body);
    if Truthy(secret) && !IsValidSignature(secret, raw, header, mac) then
      Response(401, ErrorReply(InvalidSignatureMessage))
    else
      var eventType := if body.Some? then body.value.eventType.GetOr(UnknownEvent) else UnknownEvent;
      var issueId := if body.Some? then body.value.dataId else None;
      Response(202, AcceptedReply(true, eventType, issueId))
  }

  /** A request without a body is handled like one whose body is `{}`. */
  lemma MissingBodyIsEmptyObject(secret: Option<string>, header: Option<string>,
                                 mac: (string, string) -> seq<byte>)
    ensures HandleWebhook(secret, None, header, mac)
         == HandleWebhook(secret, Some(Payload(None, None, EmptyObject)), header, mac)
  {
  }

  /** With no secret configured every request is accepted, signed or not. */
  lemma NoSecretAcceptsAll(secret: Option<string>, body: Option<Payload>, header: Option<string>,
                           mac: (string, string) -> seq<byte>)
    requires !Truthy(secret)
    ensures HandleWebhook(secret, body, header, mac).status == 202
  {
  }

  /** A request signed with the configured secret is accepted; changing the
      signature in any way gets it rejected. An HMAC-SHA256 is 32 bytes long. */
  lemma SignedRequestAccepted(secret: string, body: Option<Payload>, forged: Option<string>,
                              mac: (string, string) -> seq<byte>)
    requires secret != [] && |mac(secret, RawBody(body))| == 32
    ensures HandleWebhook(Some(secret), body, Some(Digest(secret, RawBody(body), mac)), mac).status == 202
    ensures forged != Some(Digest(secret, RawBody(body), mac)) ==>
              HandleWebhook(Some(secret), body, forged, mac).status == 401
  {
  }
}

=== FILE: outcomes.dfy ===
/** Failure-carrying values shared by every part of the model.

    The TypeScript code signals failure by throwing (or by a rejected promise).
    Here every fallible step returns a `Result`, and a thrown value becomes an
    `Error`. Collaborator failures (network, SDK) are opaque: `Remote(tag)`.
 */
module Outcomes {

  /** `undefined`/`null` versus a present value. */
  datatype Option<+T> = None | Some(value: T) {

    /** The value, or `default` when absent (the `??` operator). */
    function GetOr(default: T): T {
      match this
      case Some(v) => v
      case None => default
    }
  }

  /** The errors the core raises itself, plus opaque collaborator failures. */
  datatype Error =
    | Remote(tag: string)           // any rejection of an SDK or network call
    | NoTextResponse                // the model reply holds no text block
    | MalformedJson                 // JSON.parse threw on the stripped reply
    | NullField                     // the reply parsed to `null`, so reading `title` threw a TypeError
    | MissingTitleOrDescription     // the parsed reply lacks a truthy title or description
    | UpdateRejected(issueId: string) // the tracker reported an unsuccessful update

  /** The outcome of a step that either yields a value or throws an `Error`. */
  datatype Result<+T> = Ok(value: T) | Fail(error: Error) {

    /** The value, or `default` when the step failed (a `.catch(() => default)`). */
    function OrElse(default: T): T {
      match this
      case Ok(v) => v
      case Fail(_) => default
    }
  }

  /** JavaScript truthiness of an optional string: present and non-empty. */
  predicate Truthy(o: Option<string>) {
    o.Some? && o.value != ""
  }
}

=== FILE: text.dfy ===
/** The JavaScript string operations the core relies on, on `string = seq<char>`.

    Lengths are sequence lengths (code points), not UTF-16 code units.
 */
module Text {

  /** The characters of JavaScript's `\s` class; `String.prototype.trim`
      removes exactly the same set. */
  predicate IsWhitespace(c: char) {
    || c == ' ' || c == '\t' || c == '\n' || c == '\r'
    || c == '\U{000B}' || c == '\U{000C}' || c == '\U{00A0}' || c == '\U{1680}'
    || ('\U{2000}' <= c <= '\U{200A}')
    || c == '\U{2028}' || c == '\U{2029}' || c == '\U{202F}' || c == '\U{205F}'
    || c == '\U{3000}' || c == '\U{FEFF}'
  }

  predicate IsUpperAscii(c: char) {
    'A' <= c <= 'Z'
  }

  /** ASCII case mapping, one character. */
  function LowerChar(c: char): char {
    if IsUpperAscii(c) then (c as int + 32) as char else c
  }

  /** `s.toLowerCase()` restricted to ASCII letters. */
  function ToLower(s: string): (r: string)
    ensures |r| == |s|
    ensures forall i :: 0 <= i < |s| ==> r[i] == LowerChar(s[i])
    ensures forall i :: 0 <= i < |r| ==> !IsUpperAscii(r[i])
  {
    if s == [] then [] else [LowerChar(s[0])] + ToLower(s[1..])
  }

  /** `s.slice(0, end)` (also `Array.prototype.slice(0, end)`): a negative
      `end` counts from the back, and the result never exceeds `s`. */
  function SliceTo<T>(s: seq<T>, end: int): (r: seq<T>)
    ensures r <= s
    ensures 0 <= end ==> |r| == if end < |s| then end else |s|
    ensures end < 0 ==> |r| == if |s| + end < 0 then 0 else |s| + end
  {
    if end < 0 then
      (if |s| + end < 0 then [] else s[..|s| + end])
    else if end < |s| then s[..end]
    else s
  }

  /** The number of leading whitespace characters of `s`. */
  function Lead(s: string): (n: nat)
    ensures n <= |s|
    ensures forall i :: 0 <= i < n ==> IsWhitespace(s[i])
    ensures n < |s| ==> !IsWhitespace(s[n])
  {
    if s != [] && IsWhitespace(s[0]) then 1 + Lead(s[1..]) else 0
  }

  /** `s.trimEnd()` */
  function TrimEnd(s: string): (r: string)
    ensures |r| <= |s| && r == s[..|r|]
    ensures forall i :: |r| <= i < |s| ==> IsWhitespace(s[i])
    ensures r == [] || !IsWhitespace(r[|r| - 1])
  {
    if s != [] && IsWhitespace(s[|s| - 1]) then TrimEnd(s[..|s| - 1]) else s
  }

  /** `s.trim()`: the infix of `s` left after deleting whitespace at both
      edges, and nothing else. */
  function Trim(s: string): (r: string)
    ensures Lead(s) + |r| <= |s| && r == s[Lead(s)..Lead(s) + |r|]
    ensures forall i :: Lead(s) + |r| <= i < |s| ==> IsWhitespace(s[i])
    ensures r == [] || (!IsWhitespace(r[0]) && !IsWhitespace(r[|r| - 1]))
  {
    var k := Lead(s);
    var r := TrimEnd(s[k..]);
    assert r != [] ==> r[0] == s[k];
    r
  }

  /** Text without whitespace at either edge is left alone by `trim`. */
  lemma TrimClean(s: string)
    requires s == [] || (!IsWhitespace(s[0]) && !IsWhitespace(s[|s| - 1]))
    ensures Trim(s) == s
  {
  }

  /** Trailing whitespace after text that ends in a non-space is trimmed away. */
  lemma TrimDropsTrailingSpace(s: string)
    requires s != [] && !IsWhitespace(s[0]) && !IsWhitespace(s[|s| - 1])
    ensures Trim(s + " ") == s
  {
    var t := s + " ";
    assert t[..|t| - 1] == s;
  }

  /** The total length of the parts. */
  function TotalLength(parts: seq<string>): nat {
    if parts == [] then 0 else |parts[0]| + TotalLength(parts[1..])
  }

  /** `parts.join(sep)`: the parts in order with one separator between
      neighbours, none at either end. */
  function Join(parts: seq<string>, sep: string): (r: string)
    ensures parts == [] ==> r == []
    ensures parts != [] ==> parts[0] <= r
  {
    if parts == [] then []
    else if |parts| == 1 then parts[0]
    else parts[0] + sep + Join(parts[1..], sep)
  }

  /** The joined text is as long as the parts plus one separator between
      each pair of neighbours. */
  lemma {:induction false} JoinLength(parts: seq<string>, sep: string)
    requires parts != []
    ensures |Join(parts, sep)| == TotalLength(parts) + (|parts| - 1) * |sep|
  {
    if |parts| > 1 {
      JoinLength(parts[1..], sep);
      assert (|parts| - 1) * |sep| == |sep| + (|parts| - 2) * |sep|;
    }
  }

  /** The last part closes the joined text. */
  lemma {:induction false} JoinEndsWithLast(parts: seq<string>, sep: string)
    requires parts != []
    ensures var r := Join(parts, sep); var last := parts[|parts| - 1];
      |last| <= |r| && r[|r| - |last|..] == last
  {
    if |parts| > 1 {
      JoinEndsWithLast(parts[1..], sep);
      var rest := Join(parts[1..], sep);
      var last := parts[|parts| - 1];
      assert parts[1..][|parts| - 2] == last;
      var r := parts[0] + sep + rest;
      assert r[|r| - |last|..] == rest[|rest| - |last|..];
    }
  }

  /** The first part always opens the joined text. */
  lemma {:induction false} JoinStartsWithFirst(parts: seq<string>, sep: string)
    requires parts != []
    ensures parts[0] <= Join(parts, sep)
  {
  }

  /** Joining one more part after a non-empty list adds exactly one separator. */
  lemma {:induction false} JoinSnoc(parts: seq<string>, p: string, sep: string)
    requires parts != []
    ensures Join(parts + [p], sep) == Join(parts, sep) + sep + p
  {
    if |parts| == 1 {
      assert (parts + [p])[1..] == [p];
    } else {
      assert (parts + [p])[1..] == parts[1..] + [p];
      JoinSnoc(parts[1..], p, sep);
    }
  }

  /** The first index whose character satisfies `p`, or `|s|` when none does. */
  function FirstWhere(s: string, p: char -> bool): (i: nat)
    ensures i <= |s|
    ensures i < |s| ==> p(s[i])
    ensures forall j :: 0 <= j < i ==> !p(s[j])
  {
    if s == [] then 0
    else if p(s[0]) then 0
    else 1 + FirstWhere(s[1..], p)
  }

  /** The end of the run of `p`-characters that starts at `i`. */
  function RunEnd(s: string, i: nat, p: char -> bool): (j: nat)
    requires i <= |s|
    ensures i <= j <= |s|
    ensures forall k :: i <= k < j ==> p(s[k])
    ensures j < |s| ==> !p(s[j])
    decreases |s| - i
  {
    if i < |s| && p(s[i]) then RunEnd(s, i + 1, p) else i
  }

  /** The test "is the character `c`". */
  function CharIs(c: char): char -> bool {
    x => x == c
  }

  /** The test "is not the character `c`". */
  function CharIsNot(c: char): char -> bool {
    x => x != c
  }

  /** `s.split(sep)` for a one-character separator string. */
  function SplitOn(s: string, sep: char): (r: seq<string>)
    ensures |r| >= 1
    ensures forall i :: 0 <= i < |r| ==> sep !in r[i]
    decreases |s|
  {
    var i := FirstWhere(s, CharIs(sep));
    if i == |s| then [s] else [s[..i]] + SplitOn(s[i + 1..], sep)
  }

  /** Splitting on a separator and joining again with it gives back the text. */
  lemma {:induction false} SplitOnJoin(s: string, sep: char)
    ensures Join(SplitOn(s, sep), [sep]) == s
    decreases |s|
  {
    var i := FirstWhere(s, CharIs(sep));
    if i < |s| {
      var rest := SplitOn(s[i + 1..], sep);
      SplitOnJoin(s[i + 1..], sep);
      var parts := [s[..i]] + rest;
      assert SplitOn(s, sep) == parts;
      assert |parts| >= 2 && parts[0] == s[..i] && parts[1..] == rest;
      assert Join(parts, [sep]) == s[..i] + [sep] + Join(rest, [sep]);
      assert s == s[..i] + [sep] + s[i + 1..];
    }
  }

  /** Two separator-free pieces joined by one separator split back into
      exactly those two pieces. */
  lemma SplitOnPair(a: string, b: string, sep: char)
    requires sep !in a && sep !in b
    ensures SplitOn(a + [sep] + b, sep) == [a, b]
  {
    var s := a + [sep] + b;
    assert s[|a|] == sep;
    assert forall j :: 0 <= j < |a| ==> s[j] == a[j];
    assert FirstWhere(s, CharIs(sep)) == |a|;
    assert s[..|a|] == a && s[|a| + 1..] == b;
    assert FirstWhere(b, CharIs(sep)) == |b|;
  }

  /** `s.split(/[...]+/)` where the class is the predicate `isSep`: the text is
      cut at every maximal run of separators. A leading (trailing) run yields an
      empty first (last) token, and the empty text yields one empty token. */
  function SplitOnRuns(s: string, isSep: char -> bool): (r: seq<string>)
    ensures |r| >= 1
    ensures forall i :: 0 <= i < |r| ==> forall c :: c in r[i] ==> c in s && !isSep(c)
    // only the first and the last token can be empty
    ensures forall i :: 0 < i < |r| - 1 ==> r[i] != []
    decreases |s|
  {
    var i := FirstWhere(s, isSep);
    if i == |s| then [s]
    else
      var j := RunEnd(s, i, isSep);
      var rest := SplitOnRuns(s[j..], isSep);
      assert |rest| > 1 ==> rest[0] != [] by {
        if |rest| > 1 {
          assert j < |s|;
          assert !isSep(s[j]);
          assert FirstWhere(s[j..], isSep) > 0;
        }
      }
      [s[..i]] + rest
  }

  /** The separator runs `SplitOnRuns` cuts at, in order. */
  function Runs(s: string, isSep: char -> bool): (r: seq<string>)
    ensures |r| + 1 == |SplitOnRuns(s, isSep)|
    ensures forall i :: 0 <= i < |r| ==> r[i] != [] && forall c :: c in r[i] ==> isSep(c)
    decreases |s|
  {
    var i := FirstWhere(s, isSep);
    if i == |s| then []
    else
      var j := RunEnd(s, i, isSep);
      OnlySeparatorsInRun(s, i, isSep);
      [s[i..j]] + Runs(s[j..], isSep)
  }

  /** Tokens and runs taken alternately, starting and ending with a token. */
  function Weave(tokens: seq<string>, runs: seq<string>): string
    requires |tokens| == |runs| + 1
    decreases |runs|
  {
    if runs == [] then tokens[0] else tokens[0] + runs[0] + Weave(tokens[1..], runs[1..])
  }

  /** Weaving the tokens back with the runs gives the text again. */
  lemma {:induction false} SplitOnRunsWeave(s: string, isSep: char -> bool)
    ensures Weave(SplitOnRuns(s, isSep), Runs(s, isSep)) == s
    decreases |s|
  {
    var i := FirstWhere(s, isSep);
    if i == |s| {
      assert s[..i] == s;
    } else {
      var j := RunEnd(s, i, isSep);
      var ts, rs := SplitOnRuns(s[j..], isSep), Runs(s[j..], isSep);
      assert SplitOnRuns(s, isSep) == [s[..i]] + ts;
      assert Runs(s, isSep) == [s[i..j]] + rs;
      calc {
        Weave([s[..i]] + ts, [s[i..j]] + rs);
        { WeaveCons(s[..i], s[i..j], ts, rs); }
        s[..i] + s[i..j] + Weave(ts, rs);
        { SplitOnRunsWeave(s[j..], isSep); }
        s[..i] + s[i..j] + s[j..];
        { assert s == s[..i] + s[i..j] + s[j..]; }
        s;
      }
    }
  }

  lemma WeaveCons(t: string, u: string, ts: seq<string>, rs: seq<string>)
    requires |ts| == |rs| + 1
    ensures Weave([t] + ts, [u] + rs) == t + u + Weave(ts, rs)
  {
    assert ([t] + ts)[1..] == ts && ([u] + rs)[1..] == rs;
  }

  /** Separator-free tokens, non-empty except possibly the first and the
      last, between non-empty runs of separators. */
  predicate WellWoven(tokens: seq<string>, runs: seq<string>, isSep: char -> bool) {
    && |tokens| == |runs| + 1
    && (forall i :: 0 <= i < |tokens| ==> forall c :: c in tokens[i] ==> !isSep(c))
    && (forall i :: 0 < i < |tokens| - 1 ==> tokens[i] != [])
    && (forall i :: 0 <= i < |runs| ==> runs[i] != [] && forall c :: c in runs[i] ==> isSep(c))
  }

  lemma WellWovenTail(tokens: seq<string>, runs: seq<string>, isSep: char -> bool)
    requires WellWoven(tokens, runs, isSep) && runs != []
    ensures WellWoven(tokens[1..], runs[1..], isSep)
  {
    assert forall i :: 0 <= i < |tokens| - 1 ==> tokens[1..][i] == tokens[i + 1];
    assert forall i :: 0 <= i < |runs| - 1 ==> runs[1..][i] == runs[i + 1];
  }

  /** The split is the only way to write the text as separator-free tokens
      (non-empty inside) woven with non-empty separator runs. */
  lemma {:induction false} SplitOnRunsUnique(s: string, tokens: seq<string>, runs: seq<string>,
                                             isSep: char -> bool)
    requires WellWoven(tokens, runs, isSep) && Weave(tokens, runs) == s
    ensures SplitOnRuns(s, isSep) == tokens && Runs(s, isSep) == runs
    decreases |runs|
  {
    var t := tokens[0];
    assert forall c :: c in t ==> !isSep(c);
    if runs == [] {
      forall k | 0 <= k < |s| ensures !isSep(s[k]) { assert s[k] in t; }
      FirstWhereAt(s, isSep, |s|);
    } else {
      var w := Weave(tokens[1..], runs[1..]);
      RestOpensWithToken(tokens, runs, isSep);
      CutFirstRun(s, t, runs[0], w, isSep);
      WellWovenTail(tokens, runs, isSep);
      SplitOnRunsUnique(w, tokens[1..], runs[1..], isSep);
      HeadTail(tokens);
      HeadTail(runs);
    }
  }

  lemma HeadTail<T>(x: seq<T>)
    requires x != []
    ensures x == [x[0]] + x[1..]
  {
  }

  /** After the first run, the weave goes on with a token, so it does not open
      with a separator. */
  lemma RestOpensWithToken(tokens: seq<string>, runs: seq<string>, isSep: char -> bool)
    requires WellWoven(tokens, runs, isSep) && runs != []
    ensures var w := Weave(tokens[1..], runs[1..]); w == [] || !isSep(w[0])
  {
    var w := Weave(tokens[1..], runs[1..]);
    var next := tokens[1];
    WeaveStart(tokens[1..], runs[1..]);
    assert next <= w;
    if |runs| == 1 {
      assert runs[1..] == [] && tokens[1..][0] == next;
      assert w == next;
    } else {
      assert 0 < 1 < |tokens| - 1;
      assert next != [];
    }
    assert w != [] ==> next != [] && next[0] in next && w[0] == next[0];
  }

  /** A separator-free token, then a non-empty run, then text that does not
      open with a separator: the split cuts exactly there. */
  lemma CutFirstRun(s: string, t: string, u: string, w: string, isSep: char -> bool)
    requires s == t + u + w
    requires forall c :: c in t ==> !isSep(c)
    requires u != [] && forall c :: c in u ==> isSep(c)
    requires w == [] || !isSep(w[0])
    ensures SplitOnRuns(s, isSep) == [t] + SplitOnRuns(w, isSep)
    ensures Runs(s, isSep) == [u] + Runs(w, isSep)
  {
    var j := |t| + |u|;
    forall k | 0 <= k < |t| ensures !isSep(s[k]) { assert s[k] == t[k] && t[k] in t; }
    forall k | |t| <= k < j ensures isSep(s[k]) { assert s[k] == u[k - |t|] && u[k - |t|] in u; }
    assert s[|t|] == u[0];
    FirstWhereAt(s, isSep, |t|);
    assert j < |s| ==> s[j] == w[0];
    RunEndAt(s, |t|, isSep, j);
    SplitOnRunsStep(s, isSep);
    assert s[..|t|] == t && s[|t|..j] == u && s[j..] == w;
  }

  /** `FirstWhere` is pinned down by its two defining facts. */
  lemma FirstWhereAt(s: string, p: char -> bool, n: nat)
    requires n <= |s| && (n < |s| ==> p(s[n]))
    requires forall k :: 0 <= k < n ==> !p(s[k])
    ensures FirstWhere(s, p) == n
  {
  }

  /** `RunEnd` is pinned down by its two defining facts. */
  lemma RunEndAt(s: string, i: nat, p: char -> bool, j: nat)
    requires i <= j <= |s| && (j < |s| ==> !p(s[j]))
    requires forall k :: i <= k < j ==> p(s[k])
    ensures RunEnd(s, i, p) == j
  {
  }

  /** One step of the split: the first token, the first run, then the rest. */
  lemma SplitOnRunsStep(s: string, isSep: char -> bool)
    requires FirstWhere(s, isSep) < |s|
    ensures var i := FirstWhere(s, isSep);
      var j := RunEnd(s, i, isSep);
      && SplitOnRuns(s, isSep) == [s[..i]] + SplitOnRuns(s[j..], isSep)
      && Runs(s, isSep) == [s[i..j]] + Runs(s[j..], isSep)
  {
  }

  /** A weave opens with its first token. */
  lemma WeaveStart(tokens: seq<string>, runs: seq<string>)
    requires |tokens| == |runs| + 1
    ensures tokens[0] <= Weave(tokens, runs)
  {
  }

  /** The characters of `s` that are not separators, in order. */
  function Remove(s: string, isSep: char -> bool): string {
    if s == [] then []
    else (if isSep(s[0]) then [] else [s[0]]) + Remove(s[1..], isSep)
  }

  function Flatten(ss: seq<string>): string {
    if ss == [] then [] else ss[0] + Flatten(ss[1..])
  }

  lemma {:induction false} RemoveAppend(a: string, b: string, isSep: char -> bool)
    ensures Remove(a + b, isSep) == Remove(a, isSep) + Remove(b, isSep)
  {
    if a == [] {
      assert a + b == b;
    } else {
      var h := if isSep(a[0]) then [] else [a[0]];
      assert (a + b)[0] == a[0];
      assert (a + b)[1..] == a[1..] + b;
      RemoveAppend(a[1..], b, isSep);
      calc {
        Remove(a + b, isSep);
        h + Remove(a[1..] + b, isSep);
        h + (Remove(a[1..], isSep) + Remove(b, isSep));
        (h + Remove(a[1..], isSep)) + Remove(b, isSep);
      }
    }
  }

  lemma {:induction false} RemoveKeepsAll(s: string, isSep: char -> bool)
    requires forall c :: c in s ==> !isSep(c)
    ensures Remove(s, isSep) == s
  {
    if s != [] {
      RemoveKeepsAll(s[1..], isSep);
    }
  }

  lemma {:induction false} RemoveDropsAll(s: string, isSep: char -> bool)
    requires forall c :: c in s ==> isSep(c)
    ensures Remove(s, isSep) == []
  {
    if s != [] {
      RemoveDropsAll(s[1..], isSep);
    }
  }

  lemma {:induction false} NoSeparatorBeforeFirst(s: string, isSep: char -> bool)
    ensures forall x :: x in s[..FirstWhere(s, isSep)] ==> !isSep(x)
  {
    var a := s[..FirstWhere(s, isSep)];
    forall x | x in a ensures !isSep(x) {
      var k :| 0 <= k < |a| && a[k] == x;
      assert s[k] == x;
    }
  }

  lemma {:induction false} OnlySeparatorsInRun(s: string, i: nat, isSep: char -> bool)
    requires i <= |s|
    ensures forall x :: x in s[i..RunEnd(s, i, isSep)] ==> isSep(x)
  {
    var b := s[i..RunEnd(s, i, isSep)];
    forall x | x in b ensures isSep(x) {
      var k :| 0 <= k < |b| && b[k] == x;
      assert s[i + k] == x;
    }
  }

  /** A separator-free piece, then a run of separators, then the rest. */
  lemma {:induction false} RemoveTokenThenRun(a: string, b: string, c: string, isSep: char -> bool)
    requires forall x :: x in a ==> !isSep(x)
    requires forall x :: x in b ==> isSep(x)
    ensures Remove(a + b + c, isSep) == a + Remove(c, isSep)
  {
    calc {
      Remove(a + b + c, isSep);
      { RemoveAppend(a + b, c, isSep); }
      Remove(a + b, isSep) + Remove(c, isSep);
      { RemoveAppend(a, b, isSep); }
      Remove(a, isSep) + Remove(b, isSep) + Remove(c, isSep);
      { RemoveKeepsAll(a, isSep); RemoveDropsAll(b, isSep); }
      a + [] + Remove(c, isSep);
      { assert a + [] == a; }
      a + Remove(c, isSep);
    }
  }

  /** Splitting on separator runs loses exactly the separators: the tokens,
      concatenated, are the text with its separators deleted. */
  lemma {:induction false} SplitOnRunsKeepsContent(s: string, isSep: char -> bool)
    ensures Flatten(SplitOnRuns(s, isSep)) == Remove(s, isSep)
    decreases |s|
  {
    var i := FirstWhere(s, isSep);
    NoSeparatorBeforeFirst(s, isSep);
    if i == |s| {
      assert s[..i] == s;
      RemoveKeepsAll(s, isSep);
    } else {
      var j := RunEnd(s, i, isSep);
      OnlySeparatorsInRun(s, i, isSep);
      var a, b, c := s[..i], s[i..j], s[j..];
      assert s == a + b + c;
      RemoveTokenThenRun(a, b, c, isSep);
      SplitOnRunsKeepsContent(c, isSep);
      var r := SplitOnRuns(s, isSep);
      assert r[0] == a && r[1..] == SplitOnRuns(c, isSep);
    }
  }

  /** `a` is `b` with some elements deleted (order kept). */
  predicate IsSubsequence<T(==)>(a: seq<T>, b: seq<T>)
    decreases |b|
  {
    || a == []
    || (b != [] && ((a[0] == b[0] && IsSubsequence(a[1..], b[1..])) || IsSubsequence(a, b[1..])))
  }

  /** A subsequence is never longer than the sequence it is taken from. */
  lemma {:induction false} SubsequenceLength<T>(a: seq<T>, b: seq<T>)
    requires IsSubsequence(a, b)
    ensures |a| <= |b|
    decreases |b|
  {
    if a != [] {
      if a[0] == b[0] && IsSubsequence(a[1..], b[1..]) {
        SubsequenceLength(a[1..], b[1..]);
      } else {
        SubsequenceLength(a, b[1..]);
      }
    }
  }
}

=== FILE: utf8.dfy ===
/** Bytes, UTF-8 encoding (`Buffer.from(s, "utf8")`) and lower-case hex
    encoding (`digest("hex")`).
 */
module Utf8 {

  type byte = b: int | 0 <= b < 0x100

  predicate IsAscii(s: string) {
    forall i :: 0 <= i < |s| ==> (s[i] as int) < 0x80
  }

  /** The UTF-8 encoding of one Unicode scalar value (section 3 of RFC 3629). */
  function EncodeChar(c: char): (r: seq<byte>)
    ensures 1 <= |r| <= 4
    ensures (r[0] < 0x80) <==> ((c as int) < 0x80)
    ensures (c as int) < 0x80 ==> r == [c as int]
  {
    var n := c as int;
    if n < 0x80 then [n]
    else if n < 0x800 then [0xC0 + n / 0x40, 0x80 + n % 0x40]
    else if n < 0x10000 then [0xE0 + n / 0x1000, 0x80 + (n / 0x40) % 0x40, 0x80 + n % 0x40]
    else [0xF0 + n / 0x40000, 0x80 + (n / 0x1000) % 0x40, 0x80 + (n / 0x40) % 0x40, 0x80 + n % 0x40]
  }

  /** `Buffer.from(s, "utf8")` */
  function Encode(s: string): (r: seq<byte>)
    ensures |r| >= |s|
    // ASCII text encodes to its own character codes, one byte each
    ensures IsAscii(s) ==> |r| == |s| && forall i :: 0 <= i < |s| ==> r[i] == s[i] as int
  {
    if s == [] then [] else EncodeChar(s[0]) + Encode(s[1..])
  }

  /** Encoding is character by character: it distributes over concatenation. */
  lemma {:induction false} EncodeAppend(a: string, b: string)
    ensures Encode(a + b) == Encode(a) + Encode(b)
  {
    if a != [] {
      assert (a + b)[0] == a[0] && (a + b)[1..] == a[1..] + b;
      calc {
        Encode(a + b);
        EncodeChar(a[0]) + Encode(a[1..] + b);
        { EncodeAppend(a[1..], b); }
        EncodeChar(a[0]) + (Encode(a[1..]) + Encode(b));
      }
    } else {
      assert a + b == b;
    }
  }

  /** Byte equality with an ASCII text pins the other text down exactly:
      comparing UTF-8 buffers is comparing the strings. */
  lemma {:induction false} EncodeAsciiInjective(h: string, d: string)
    requires IsAscii(d)
    ensures Encode(h) == Encode(d) <==> h == d
  {
    if Encode(h) == Encode(d) {
      if d == [] {
        assert h == [];
      } else {
        assert h != [];
        var eh := EncodeChar(h[0]);
        assert Encode(d) == [d[0] as int] + Encode(d[1..]);
        assert Encode(h)[0] == eh[0];
        assert eh[0] == d[0] as int;
        assert h[0] == d[0];
        assert eh == [d[0] as int];
        assert Encode(h)[1..] == Encode(h[1..]);
        assert Encode(d)[1..] == Encode(d[1..]);
        EncodeAsciiInjective(h[1..], d[1..]);
        assert h == [h[0]] + h[1..];
      }
    }
  }

  /** `0`-`9` and `a`-`f`. */
  predicate IsLowerHexDigit(c: char) {
    '0' <= c <= '9' || 'a' <= c <= 'f'
  }

  const HexDigits: string := "0123456789abcdef"

  function HexDigit(n: int): (c: char)
    requires 0 <= n < 16
    ensures (c as int) < 0x80 && IsLowerHexDigit(c)
    ensures c == HexDigits[n]
  {
    if n < 10 then ('0' as int + n) as char else ('a' as int + n - 10) as char
  }

  /** Lower-case hexadecimal, two digits per byte, high nibble first. */
  function Hex(bytes: seq<byte>): (r: string)
    ensures |r| == 2 * |bytes|
    ensures IsAscii(r)
    ensures forall i :: 0 <= i < |r| ==> IsLowerHexDigit(r[i])
    // byte `i` is the digits `2i` (high nibble) and `2i + 1` (low nibble)
    ensures forall i :: 0 <= i < |bytes| ==>
      r[2 * i] == HexDigits[bytes[i] / 16] && r[2 * i + 1] == HexDigits[bytes[i] % 16]
  {
    if bytes == [] then []
    else [HexDigit(bytes[0] / 16), HexDigit(bytes[0] % 16)] + Hex(bytes[1..])
  }

  /** Distinct nibbles give distinct digits. */
  lemma HexDigitInjective(n: int, m: int)
    requires 0 <= n < 16 && 0 <= m < 16 && HexDigit(n) == HexDigit(m)
    ensures n == m
  {
  }

  /** Different byte strings have different hex texts. */
  lemma {:induction false} HexInjective(a: seq<byte>, b: seq<byte>)
    requires Hex(a) == Hex(b)
    ensures a == b
  {
    if a != [] {
      var ha, hb := Hex(a), Hex(b);
      assert |b| == |a|;
      assert ha[0] == HexDigit(a[0] / 16) && hb[0] == HexDigit(b[0] / 16);
      assert ha[1] == HexDigit(a[0] % 16) && hb[1] == HexDigit(b[0] % 16);
      HexDigitInjective(a[0] / 16, b[0] / 16);
      HexDigitInjective(a[0] % 16, b[0] % 16);
      assert a[0] == b[0];
      assert ha[2..] == Hex(a[1..]) && hb[2..] == Hex(b[1..]);
      HexInjective(a[1..], b[1..]);
      assert a == [a[0]] + a[1..] && b == [b[0]] + b[1..];
    }
  }
}
